=== FILE: README.md ===
# CMS complaint management client — functional core in Dafny

This project models the decision logic of the CMS Android client. In this
complaint management system:

- managers create institutions with a list of named roles;
- users register, log in, search an institution by name and join it under one
  of its non-manager roles;
- members submit complaint reports to an institution;
- managers list, filter, count and answer those reports.

The client keeps its state in three Firestore collections: `users`,
`institutions` and `reports`. The model represents them as one immutable
`Store`. Each screen (an `Activity`) is one module. Each action on a screen is
a pure function from the store and the raw field contents to an outcome:

- `Ok` with the new store;
- `Rejected` with the reason the screen reports;
- `PartialWrite`, when the first of two non-transactional writes landed and the
  second did not.

Inputs are passed in rather than read: the success or failure of each Firestore
listener, the document ids Firestore assigns, the wall clock, the signed-in
user id and the platform's e-mail pattern. Java `null` and absent document
fields are `Option`s.

Shared modules:

- `Wrappers` holds `Option`.
- `JavaString` holds `String.trim`, ASCII `toLowerCase`/`equalsIgnoreCase`,
  `split` and the status capitalisation.
- `Domain` holds the documents and the store.
- `ArrayUnion` holds Firestore's `FieldValue.arrayUnion`.
- `ReportOrder` holds the stable newest-first sort that both report lists use.
- `ReportScope` holds the two report queries.

On these points the model follows the code:

- A registered non-manager gets `userType` `"user"`.
- Role lists keep case variants of one another. Two comma-free pieces parse
  to their two trims, whatever their case
  (`CreateInstitutionActivity.ParseRolesKeepsCaseVariants`), so `"HR, hr"`
  gives both roles (`CreateInstitutionActivity.ParseRolesOfUpperAndLowerHr`). Adding
  `"X,x"` to an institution that has neither appends both
  (`AddRolesActivity.AddRolesKeepsNewCaseVariants`). Only a role that equals an
  existing one ignoring case is dropped.
- The institution id of a report is checked for emptiness without trimming.
- A stored status of `""` makes every screen that shows it throw, because the
  status is rendered with `substring(0, 1)`. Opening such a report is
  `ManageReportActivity.LoadReport`'s `EmptyStatus`. Listing one is the
  `EmptyStatus` view of `ViewAllReportsActivity.ViewAllReports` and of
  `ViewMyReportsActivity.ViewMyReports`. The screens themselves never write `""`.

## Model

All source paths are under `app/src/main/java/com/example/cms/`.

| member | source | states |
|---|---|---|
| JavaString.Trim | app/src/main/java/com/example/cms/CreateInstitutionActivity.java:72-73 | the trimmed string has no character at or below U+0020 at either end and is no longer than its input; JavaString.TrimChars places it inside the input |
| JavaString.TrimChars | app/src/main/java/com/example/cms/CreateInstitutionActivity.java:232 | the trim is an infix `s[i..j]` of the input with only characters at or below U+0020 before `i` and from `j` on |
| JavaString.TrimEmpty | app/src/main/java/com/example/cms/CreateInstitutionActivity.java:211-221 | a field trims to empty iff every character of it is at or below U+0020 |
| JavaString.TrimIdempotent | app/src/main/java/com/example/cms/CreateInstitutionActivity.java:208-209 | trimming a trimmed field changes nothing, so validation and use agree |
| JavaString.Lower | app/src/main/java/com/example/cms/ManageReportActivity.java:227 | lower-casing maps each character to its lower-case form, position by position |
| JavaString.LowerOfLowerCase | app/src/main/java/com/example/cms/ManageReportActivity.java:227 | lower-casing a lower-case string is the identity |
| JavaString.LowerCapitalizeRoundTrip | app/src/main/java/com/example/cms/ManageReportActivity.java:169-170 | capitalising a non-empty lower-case status and lower-casing it again gives the status back |
| JavaString.Capitalize | app/src/main/java/com/example/cms/ManageReportActivity.java:168 | capitalising a non-empty status keeps its length and all but its first character. A lower-case ASCII first letter becomes its upper-case form; any other first character is kept, so the string is unchanged. JavaString.LowerCapitalizeRoundTrip inverts it |
| JavaString.EqualsIgnoreCase | app/src/main/java/com/example/cms/JoinInstitutionActivity.java:165 | two strings are equal ignoring case when their lower-cased forms are equal; JavaString.EqualsIgnoreCasePointwise characterises it |
| JavaString.EqualsIgnoreCasePointwise | app/src/main/java/com/example/cms/JoinInstitutionActivity.java:165 | both directions: equal ignoring case iff equally long and equal position by position after lower-casing each character |
| JavaString.Split | app/src/main/java/com/example/cms/CreateInstitutionActivity.java:230 | splitting gives at least one piece and no piece contains the separator; JavaString.JoinSplit re-joins the pieces to the input |
| JavaString.JoinSplit | app/src/main/java/com/example/cms/CreateInstitutionActivity.java:230 | the comma-split pieces contain no comma and re-join to the original text |
| JavaString.SplitConcat | app/src/main/java/com/example/cms/CreateInstitutionActivity.java:230 | splitting `a,b` gives the pieces of `a` followed by the pieces of `b` |
| JavaString.SplitNoSeparator | app/src/main/java/com/example/cms/CreateInstitutionActivity.java:230 | text without a comma splits into itself |
| Domain.FindInstitution | app/src/main/java/com/example/cms/AddRolesActivity.java:164-167 | the document lookup by id yields the first institution with that id, and none iff no institution has it |
| Domain.FindReport | app/src/main/java/com/example/cms/ManageReportActivity.java:132-137 | the document lookup by id yields the first report with that id, and none iff no report has it |
| ArrayUnion.Union | app/src/main/java/com/example/cms/AddRolesActivity.java:198-200 | `arrayUnion` keeps the stored array as a prefix and contains every given value. What it appends are given values absent from the array, each once |
| ArrayUnion.UnionOfPresent | app/src/main/java/com/example/cms/AddRolesActivity.java:198-200 | a union of values already stored changes nothing |
| ArrayUnion.UnionKeepsNoDuplicates | app/src/main/java/com/example/cms/AddRolesActivity.java:198-200 | a duplicate-free array stays duplicate-free under a union |
| ArrayUnion.UnionOfFresh | app/src/main/java/com/example/cms/AddRolesActivity.java:198-200 | distinct values that are all absent are appended in order |
| CreateInstitutionActivity.KeepRoles | app/src/main/java/com/example/cms/CreateInstitutionActivity.java:231-236 | the kept roles are non-empty, already trimmed, and comma-free when the pieces are |
| CreateInstitutionActivity.ParseRoles | app/src/main/java/com/example/cms/CreateInstitutionActivity.java:226-239 | every parsed role is non-empty, trimmed and comma-free |
| CreateInstitutionActivity.KeepRolesConcat | app/src/main/java/com/example/cms/CreateInstitutionActivity.java:231-236 | keeping distributes over concatenated piece lists |
| CreateInstitutionActivity.ParseRolesConcat | app/src/main/java/com/example/cms/CreateInstitutionActivity.java:226-239 | the roles of `a,b` are the roles of `a` followed by those of `b` |
| CreateInstitutionActivity.KeepRolesMembership | app/src/main/java/com/example/cms/CreateInstitutionActivity.java:231-236 | both directions: a role is kept iff it is the non-empty trim of some piece |
| CreateInstitutionActivity.ParseRolesMembership | app/src/main/java/com/example/cms/CreateInstitutionActivity.java:226-239 | both directions: a role is parsed iff it is the non-empty trim of some comma-separated piece |
| CreateInstitutionActivity.ParseRolesSingle | app/src/main/java/com/example/cms/CreateInstitutionActivity.java:226-239 | a comma-free input gives its trim as the only role, or no role when that trim is empty |
| CreateInstitutionActivity.ParseRolesKeepsCaseVariants | app/src/main/java/com/example/cms/CreateInstitutionActivity.java:226-239 | `a,b` with comma-free pieces whose trims are non-empty parses to exactly `[Trim(a), Trim(b)]`, in order: no case-insensitive deduplication |
| CreateInstitutionActivity.ParseRolesOfUpperAndLowerHr | app/src/main/java/com/example/cms/CreateInstitutionActivity.java:226-239 | `"HR, hr"` gives the two roles `"HR"` and `"hr"` |
| CreateInstitutionActivity.ParseRolesOfSeparatorsOnly | app/src/main/java/com/example/cms/CreateInstitutionActivity.java:76-81 | commas alone give no role, the case the screen rejects after validation passed |
| CreateInstitutionActivity.NewInstitution | app/src/main/java/com/example/cms/CreateInstitutionActivity.java:100-111 | the new institution's manager role is one of its roles |
| CreateInstitutionActivity.WithManagerMembership | app/src/main/java/com/example/cms/CreateInstitutionActivity.java:144-166 | the profile keeps its memberships, gains one manager membership at the end, and sets the legacy fields; nothing else changes |
| CreateInstitutionActivity.CreateCheck | app/src/main/java/com/example/cms/CreateInstitutionActivity.java:207-224 | creation proceeds iff the trimmed name is non-empty and the roles parse to at least one. Each refusal is reported iff every earlier check passed: a missing name, then a blank role list, then a list with no role left after parsing |
| CreateInstitutionActivity.CreateInstitution | app/src/main/java/com/example/cms/CreateInstitutionActivity.java:66-205 | rejects invalid input or a failed insert. Otherwise it appends the institution: creator as sole manager, first role as manager role. It adds the manager membership iff the profile update succeeds and otherwise reports a partial write |
| CreateInstitutionActivity.CreatedManagerRoleIsARole | app/src/main/java/com/example/cms/CreateInstitutionActivity.java:91 | the stored manager role name is among the stored roles |
| CreateInstitutionActivity.CreatePreservesConsistency | app/src/main/java/com/example/cms/CreateInstitutionActivity.java:132-205 | creation keeps every membership pointing at an existing institution and keeps memberships unique per institution |
| AddRolesActivity.PartitionMembership | app/src/main/java/com/example/cms/AddRolesActivity.java:174-190 | both directions: a role is to be added iff it is parsed and no existing role equals it ignoring case; otherwise it is a duplicate |
| AddRolesActivity.RolesToAdd | app/src/main/java/com/example/cms/AddRolesActivity.java:174-190 | no more new roles than parsed roles; AddRolesActivity.PartitionMembership says which they are |
| AddRolesActivity.Duplicates | app/src/main/java/com/example/cms/AddRolesActivity.java:174-190 | no more duplicates than parsed roles; AddRolesActivity.PartitionMembership says which they are |
| AddRolesActivity.PartitionIsExact | app/src/main/java/com/example/cms/AddRolesActivity.java:174-190 | the two lists together are a permutation of the parsed roles |
| AddRolesActivity.PartitionConcat | app/src/main/java/com/example/cms/AddRolesActivity.java:174-190 | partitioning distributes over concatenated inputs |
| AddRolesActivity.Partition | app/src/main/java/com/example/cms/AddRolesActivity.java:174-190 | the nested loop computes exactly the new roles and the duplicates, in input order |
| AddRolesActivity.GrownRoles | app/src/main/java/com/example/cms/AddRolesActivity.java:174-200 | the old list is a prefix of the new one. The appended part holds exactly the parsed roles that equal no existing role ignoring case, each once, and every parsed role is covered up to case |
| AddRolesActivity.AddRoles | app/src/main/java/com/example/cms/AddRolesActivity.java:141-232 | each outcome is an iff: empty input, nothing parsed, missing institution, all roles present, store failure on the read or the write, and success. On success only that institution's roles change, by a union that adds at least one role |
| AddRolesActivity.AddRolesAppendOnly | app/src/main/java/com/example/cms/AddRolesActivity.java:198-200 | a successful addition strictly extends the role list and leaves the manager role alone |
| AddRolesActivity.AddRolesKeepsManagerRole | app/src/main/java/com/example/cms/AddRolesActivity.java:198-200 | the manager role stays among the roles |
| AddRolesActivity.AllDuplicatesAddNothing | app/src/main/java/com/example/cms/AddRolesActivity.java:192-196 | when every parsed role exists up to case there is nothing to add |
| AddRolesActivity.AddRolesIdempotent | app/src/main/java/com/example/cms/AddRolesActivity.java:192-196 | submitting the same roles again is rejected because all of them exist |
| AddRolesActivity.ParseTwoRoles | app/src/main/java/com/example/cms/AddRolesActivity.java:145-153 | two clean roles joined by a comma parse back to the two roles |
| AddRolesActivity.NoDuplicatesAddAll | app/src/main/java/com/example/cms/AddRolesActivity.java:174-190 | when no parsed role exists up to case, all of them are to be added |
| AddRolesActivity.AddRolesKeepsNewCaseVariants | app/src/main/java/com/example/cms/AddRolesActivity.java:174-200 | two new case variants of one role are both appended |
| JoinInstitutionActivity.FindByName | app/src/main/java/com/example/cms/JoinInstitutionActivity.java:162-168 | the search stops at the first institution whose name equals the query ignoring case, and finds none iff no name does |
| JoinInstitutionActivity.JoinableRoles | app/src/main/java/com/example/cms/JoinInstitutionActivity.java:179-192 | no more offered roles than stored ones; JoinInstitutionActivity.JoinableMembership says which they are |
| JoinInstitutionActivity.JoinableMembership | app/src/main/java/com/example/cms/JoinInstitutionActivity.java:179-192 | both directions: a role is offered iff the institution has it and it is not the manager role ignoring case |
| JoinInstitutionActivity.JoinableWithoutManagerRole | app/src/main/java/com/example/cms/JoinInstitutionActivity.java:183-190 | without a manager role every role is offered |
| JoinInstitutionActivity.SearchInstitution | app/src/main/java/com/example/cms/JoinInstitutionActivity.java:126-225 | each outcome is an iff: empty name, failed read, no match, and, for the first match, no roles, no joinable roles, or an offer. The offer carries that institution's id, name and joinable roles |
| JoinInstitutionActivity.OfferedRolesAreMemberRoles | app/src/main/java/com/example/cms/JoinInstitutionActivity.java:179-210 | every offered role belongs to the first matching institution and is not its manager role |
| JoinInstitutionActivity.WithMemberMembership | app/src/main/java/com/example/cms/JoinInstitutionActivity.java:403-436 | the profile keeps its memberships, gains one non-manager membership at the end, and sets the legacy fields; nothing else changes |
| JoinInstitutionActivity.Join | app/src/main/java/com/example/cms/JoinInstitutionActivity.java:390-462 | with no selection it is rejected. It reports "already joined" iff a membership of that institution exists. It is a store failure iff a role is selected and either the read fails, or the user is not yet a member and the document is missing or the update fails. It succeeds iff the read and the write succeed and the user is not yet a member. Success changes only that user's document |
| JoinInstitutionActivity.JoinTwiceRejected | app/src/main/java/com/example/cms/JoinInstitutionActivity.java:413-421 | a second join of the same institution is rejected whatever role is chosen |
| JoinInstitutionActivity.JoinPreservesConsistency | app/src/main/java/com/example/cms/JoinInstitutionActivity.java:390-462 | joining keeps memberships pointing at existing institutions and unique per institution |
| JoinInstitutionActivity.JoinedAsMember | app/src/main/java/com/example/cms/JoinInstitutionActivity.java:426-436 | the new membership is a non-manager one with an offered role of the found institution |
| SubmitReportActivity.ValidateReport | app/src/main/java/com/example/cms/SubmitReportActivity.java:84-106 | a report passes iff trimmed title and description are non-empty and an institution id is present and non-empty. Each refusal is reported iff every earlier check passed: title, then description, then the untrimmed institution id |
| SubmitReportActivity.NewReport | app/src/main/java/com/example/cms/SubmitReportActivity.java:112-128 | a new report is pending, has an empty response and is created and updated at the same instant |
| SubmitReportActivity.SubmitReport | app/src/main/java/com/example/cms/SubmitReportActivity.java:108-143 | succeeds iff validation and the write succeed, and is a store failure iff validation passes and the write fails. Success appends one report carrying the submitter, the institution and the trimmed texts: pending, with an empty response, created and updated at the same instant. Nothing else changes |
| SubmitReportActivity.SubmittedReportIsFound | app/src/main/java/com/example/cms/SubmitReportActivity.java:118-128 | the submitted report is found by its id as a pending report with no response, created and updated at the submission time |
| ManageReportActivity.OptionsAreCapitalizedValues | app/src/main/java/com/example/cms/ManageReportActivity.java:100-116 | each spinner option is the capitalised form of the stored status value |
| ManageReportActivity.StatusValuesDistinct | app/src/main/java/com/example/cms/ManageReportActivity.java:100-116 | the four status values are pairwise different |
| ManageReportActivity.StatusValuesAreLoweredOptions | app/src/main/java/com/example/cms/ManageReportActivity.java:227 | lower-casing each spinner option gives its stored status value |
| ManageReportActivity.Position | app/src/main/java/com/example/cms/ManageReportActivity.java:170 | the adapter position is the first index of the option, and none iff it is absent |
| ManageReportActivity.InitialSelection | app/src/main/java/com/example/cms/ManageReportActivity.java:166-174 | an empty status is an error; a known status selects its option, anything else the first option |
| ManageReportActivity.LoadReport | app/src/main/java/com/example/cms/ManageReportActivity.java:64-200 | each outcome is an iff: missing id, failed read, report not found, empty status. A loaded form belongs to the first report with that id, selects the option of its status and shows the stored response |
| ManageReportActivity.UpdateReport | app/src/main/java/com/example/cms/ManageReportActivity.java:225-254 | succeeds iff the write succeeds and the report exists. A failed write is a store failure; a successful write to a missing report is "report not found". Success stores the lower-cased option, the trimmed response and the time, and changes nothing else |
| ManageReportActivity.UpdatedStatusIsAValue | app/src/main/java/com/example/cms/ManageReportActivity.java:227-239 | an updated status is one of the four lower-case values |
| ManageReportActivity.InitialSelectionOfValue | app/src/main/java/com/example/cms/ManageReportActivity.java:166-174 | a stored status value selects its own option |
| ManageReportActivity.SaveUntouchedForm | app/src/main/java/com/example/cms/ManageReportActivity.java:132-254 | saving a just-loaded form with a known status and a trimmed response changes only the update time |
| ManageReportActivity.SubmittedReportLoads | app/src/main/java/com/example/cms/ManageReportActivity.java:132-200 | a freshly submitted report loads with "Pending" selected and an empty response |
| ReportOrder.InsertIsPermutation | app/src/main/java/com/example/cms/ViewMyReportsActivity.java:107-113 | inserting into the ordered list neither loses nor duplicates a report |
| ReportOrder.SortByNewest | app/src/main/java/com/example/cms/ViewMyReportsActivity.java:107-113 | the sorted list is as long as its input; ReportOrder.SortIsPermutation, SortIsSorted and SortIsStable make it the stable newest-first permutation |
| ReportOrder.SortIsPermutation | app/src/main/java/com/example/cms/ViewMyReportsActivity.java:107-113 | sorting is a permutation |
| ReportOrder.InsertKeepsSorted | app/src/main/java/com/example/cms/ViewMyReportsActivity.java:107-113 | inserting into a newest-first list keeps it newest-first |
| ReportOrder.SortIsSorted | app/src/main/java/com/example/cms/ViewMyReportsActivity.java:107-113 | the sorted list is newest first, a missing time counting as 0 |
| ReportOrder.InsertWithKey | app/src/main/java/com/example/cms/ViewMyReportsActivity.java:107-113 | insertion keeps the relative order of reports with equal times |
| ReportOrder.SortIsStable | app/src/main/java/com/example/cms/ViewMyReportsActivity.java:107-113 | the sort is stable, as `List.sort` is |
| ReportScope.OfInstitutionMembership | app/src/main/java/com/example/cms/ViewAllReportsActivity.java:161-162 | both directions: a report is in an institution's query result iff it is stored with that institution id |
| ReportScope.OfInstitution | app/src/main/java/com/example/cms/ViewAllReportsActivity.java:161-162 | the query returns no more reports than are stored; ReportScope.OfInstitutionMembership says which |
| ReportScope.OfUserAt | app/src/main/java/com/example/cms/ViewMyReportsActivity.java:87-90 | the query returns no more reports than are stored; ReportScope.OfUserAtMembership says which |
| ReportScope.OfUserAtMembership | app/src/main/java/com/example/cms/ViewMyReportsActivity.java:87-90 | both directions: a report is in the user's query result iff it is stored with that user and institution |
| InstitutionDetailActivity.CountStatusAppend | app/src/main/java/com/example/cms/InstitutionDetailActivity.java:189-207 | one more report adds one to its status's count only |
| InstitutionDetailActivity.CountByStatus | app/src/main/java/com/example/cms/InstitutionDetailActivity.java:182-207 | the loop's counters equal the number of reports of each status and the total |
| InstitutionDetailActivity.LoadStatistics | app/src/main/java/com/example/cms/InstitutionDetailActivity.java:177-223 | the error text shows iff the query fails; otherwise the statistics count the institution's reports by status |
| InstitutionDetailActivity.BucketsWithinTotal | app/src/main/java/com/example/cms/InstitutionDetailActivity.java:189-207 | the four buckets never add up to more than the total; unknown statuses are in none |
| InstitutionDetailActivity.BucketsFillTotal | app/src/main/java/com/example/cms/InstitutionDetailActivity.java:189-207 | when every status is one of the four, the buckets add up to the total |
| ViewAllReportsActivity.FilterMembership | app/src/main/java/com/example/cms/ViewAllReportsActivity.java:176-184 | both directions: a report passes iff the filter is "All" or its status equals the filter ignoring case |
| ViewAllReportsActivity.FilterByStatus | app/src/main/java/com/example/cms/ViewAllReportsActivity.java:176-184 | the filter keeps no more reports than it is given; ViewAllReportsActivity.FilterMembership says which |
| ViewAllReportsActivity.AllFilterKeepsEverything | app/src/main/java/com/example/cms/ViewAllReportsActivity.java:45 | the default filter keeps every report |
| ViewAllReportsActivity.ViewAllReports | app/src/main/java/com/example/cms/ViewAllReportsActivity.java:156-311 | it tells a failed read, no reports and no match apart; "no match" carries the selected filter for its message. It stops at a kept report whose status is `""` iff there is one, since rendering that status throws. Otherwise it lists exactly the filtered reports of the institution, newest first and stable |
| ViewAllReportsActivity.ListingIsExact | app/src/main/java/com/example/cms/ViewAllReportsActivity.java:176-204 | both directions: a report is listed iff it belongs to the institution and passes the filter |
| ViewAllReportsActivity.FilterOptionsMatchWrittenStatus | app/src/main/java/com/example/cms/ViewAllReportsActivity.java:114-121 | a report whose status the manage screen wrote passes exactly the matching filter option |
| ViewMyReportsActivity.ViewMyReports | app/src/main/java/com/example/cms/ViewMyReportsActivity.java:78-172 | it tells a failed read and no reports apart. It stops at a report whose status is `""` iff there is one, since rendering that status throws. Otherwise it lists exactly the user's reports at the institution, newest first and stable |
| ViewMyReportsActivity.SubmittedReportIsListed | app/src/main/java/com/example/cms/ViewMyReportsActivity.java:87-106 | after a submission the list either shows the new report or stops on an empty status. It stops iff an earlier report of that user at that institution has status `""` |
| ViewMyReportsActivity.ResponseLine | app/src/main/java/com/example/cms/ViewMyReportsActivity.java:253-257 | the "no response" line appears iff the response is absent or empty; otherwise the response reads back from under its header |
| RegisterActivity.ValidateRegistration | app/src/main/java/com/example/cms/RegisterActivity.java:126-184 | registration passes iff all of these hold: name present, e-mail present and valid, password present and at least six long, confirmation present and equal. Each error is reported iff it is the first failing check in that order |
| RegisterActivity.UserTypeFor | app/src/main/java/com/example/cms/RegisterActivity.java:90 | the type is "manager" iff the manager option is checked, else "user" |
| RegisterActivity.NewUserDocument | app/src/main/java/com/example/cms/RegisterActivity.java:189-197 | a new user document has no memberships and no legacy institution fields |
| RegisterActivity.Register | app/src/main/java/com/example/cms/RegisterActivity.java:82-224 | invalid input is rejected with exactly the first failing check of the validator. Valid input is a sign-up failure iff no credential is created, and orphaned iff a credential is created but its document is not stored. Success writes exactly the new user's document |
| RegisterActivity.RegisterPreservesConsistency | app/src/main/java/com/example/cms/RegisterActivity.java:186-224 | registration keeps the store consistent |
| LoginActivity.ValidateLogin | app/src/main/java/com/example/cms/LoginActivity.java:117-144 | login passes iff the e-mail is present and valid and the password is present. Each error is reported iff it is the first failing check in that order; there is no length check |
| LoginActivity.Route | app/src/main/java/com/example/cms/LoginActivity.java:153-181 | a missing document signs out and a missing type stays put. Exactly "manager" goes to the manager dashboard, any other type to the user dashboard |
| LoginActivity.LoginStep | app/src/main/java/com/example/cms/LoginActivity.java:76-115 | invalid input is rejected with exactly the validator's first failing check. Failed sign-in and failed fetch are each reported iff they occur first; otherwise routing follows the fetched document |
| LoginActivity.RegistrationInputsPassLogin | app/src/main/java/com/example/cms/LoginActivity.java:117-136 | inputs that pass registration pass login |
| LoginActivity.LoginAcceptsShortPassword | app/src/main/java/com/example/cms/LoginActivity.java:117-136 | the converse fails: login accepts a password registration calls too short |
| LoginActivity.RegisteredUserRoutes | app/src/main/java/com/example/cms/LoginActivity.java:146-190 | a newly registered user is routed to the manager dashboard iff the manager option was checked |
| ManagerDashboardActivity.ManagedBy | app/src/main/java/com/example/cms/ManagerDashboardActivity.java:139-141 | the primary query returns no more institutions than are stored; ManagerDashboardActivity.ManagedByMembership says which |
| ManagerDashboardActivity.LegacyManagedBy | app/src/main/java/com/example/cms/ManagerDashboardActivity.java:143-148 | the legacy query returns no more institutions than are stored; ManagerDashboardActivity.LegacyManagedByMembership says which |
| ManagerDashboardActivity.ManagedByMembership | app/src/main/java/com/example/cms/ManagerDashboardActivity.java:139-141 | both directions: the primary query finds an institution iff its manager list holds the user |
| ManagerDashboardActivity.LegacyManagedByMembership | app/src/main/java/com/example/cms/ManagerDashboardActivity.java:143-148 | both directions: the legacy query finds an institution iff its single manager is the user |
| ManagerDashboardActivity.CardFor | app/src/main/java/com/example/cms/ManagerDashboardActivity.java:176-287 | a card shows the manager role, or "Manager" when none is stored, and the number of roles, 0 when none |
| ManagerDashboardActivity.CardsFor | app/src/main/java/com/example/cms/ManagerDashboardActivity.java:176-287 | one card per institution, in order |
| ManagerDashboardActivity.ManagerDashboard | app/src/main/java/com/example/cms/ManagerDashboardActivity.java:131-174 | the primary query's results are shown when there are any. Only otherwise is the legacy query consulted. The error shows iff the query consulted last fails, and the empty state iff both find nothing |
| ManagerDashboardActivity.DashboardShowsManagedInstitutions | app/src/main/java/com/example/cms/ManagerDashboardActivity.java:131-174 | every managed institution that the query in use finds has a card, and every card is of an institution the user manages |
| ManagerDashboardActivity.CreatedInstitutionIsListed | app/src/main/java/com/example/cms/ManagerDashboardActivity.java:139-141 | an inserted institution is on its creator's dashboard, even when the profile update failed |
| UserDashboardActivity.RoleLabel | app/src/main/java/com/example/cms/UserDashboardActivity.java:192-195 | the label reads back the role, or "Member", followed by the manager badge iff the entry is a manager one |
| UserDashboardActivity.CardFor | app/src/main/java/com/example/cms/UserDashboardActivity.java:146-248 | a card opens the management screen iff the entry is a manager one, else the member view with the entry's role. Its name defaults to "Institution" |
| UserDashboardActivity.CardsFor | app/src/main/java/com/example/cms/UserDashboardActivity.java:113-121 | at most one card per membership; UserDashboardActivity.CardsForMembership says which |
| UserDashboardActivity.CardsForMembership | app/src/main/java/com/example/cms/UserDashboardActivity.java:107-121 | both directions: a card is shown iff some membership names an existing institution and yields that card |
| UserDashboardActivity.UserDashboard | app/src/main/java/com/example/cms/UserDashboardActivity.java:84-144 | it tells a failed read, a missing document and no memberships apart; otherwise it shows the cards of the memberships |
| UserDashboardActivity.MembershipCardRoutes | app/src/main/java/com/example/cms/UserDashboardActivity.java:228-239 | a membership of an existing institution shows a card routed by its manager flag |
| UserDashboardActivity.CreatorManagesFromDashboard | app/src/main/java/com/example/cms/UserDashboardActivity.java:107-121 | after a complete creation the creator has a card opening the institution's management |
| UserDashboardActivity.JoinedMemberSeesCard | app/src/main/java/com/example/cms/UserDashboardActivity.java:107-121 | after a join the member has a card opening the member view with the chosen role |

## Left out

- Layout, toasts, progress indicators, colours and navigation intents are not modelled. Each screen's result is a datatype naming what it shows.
- Firestore's concurrency, retries, offline cache and document ordering are not modelled. Collections are sequences in scan order. A lookup by a duplicated document id takes the first match. Generated ids and `System.currentTimeMillis()` are parameters.
- The user dashboard loads each card with its own asynchronous read and adds it when that read returns, so the order on screen may differ. The model lists cards in stored membership order. A card whose read fails is treated like a missing institution, which is skipped.
- `Patterns.EMAIL_ADDRESS` is a parameter `validEmail`, since the regular expression belongs to the platform.
- Case mapping is ASCII only. Java's Unicode case tables, UTF-16 lengths and surrogate pairs are not modelled.
- `toLowerCase()` and `toUpperCase()` without arguments follow the device's default locale. The calls are ManageReportActivity.java:168 and 227 and InstitutionDetailActivity.java:192. The model assumes a language-neutral locale. Under a Turkish locale "Investigating" lower-cases to "ınvestigating", and "investigating" capitalises to "İnvestigating", which matches no option. ManageReportActivity.UpdatedStatusIsAValue and ManageReportActivity.SaveUntouchedForm hold only under that assumption.
- `String.split` discards trailing empty strings. This is not modelled, because every empty piece is dropped after trimming anyway.
- Dates are formatted for display in the report lists and the detail dialog. That formatting is not modelled.
- UserInstitutionDetailActivity is not part of this model. It only displays a membership.
- The screens display the user's name (`loadUserInfo`) and the institution's name. These reads are not modelled.
- The code performs no authorisation check, and the model adds none. Any signed-in user can, for example, update any report by id.
- The view screens receive the institution id through the intent, which can be null. The model takes it as a string.
- The search in the join screen reads the whole `institutions` collection. Its failure listener is the parameter `readOk`.
- The join screen's second route is not modelled: `loadAllInstitutions` lists every institution, and tapping a card offers that institution's roles directly (JoinInstitutionActivity.java:227-388). The model covers the search by exact name, which leads to the same `Join` write.
- After the insert, the creation flow makes three more calls: it re-reads the new institution document, reads the user document, then updates it. Their failures are merged into the one parameter `profileOk`. Each failure leaves the institution stored without the manager membership. The model does not tell the three messages apart.
- The `users` document of the creator is updated, not set. A missing document therefore fails the update and is reported as a partial write.
- ManageReportActivity.UpdateReport: the code has one failure listener for the `update` call (ManageReportActivity.java:249-253). Firestore fails that call both when the store fails and when the document no longer exists, so the screen shows the same error for both. The model keeps the two reasons apart, as `StoreFailure` and `ReportNotFound`.

=== FILE: add_roles.dfy ===
/**
  The "add roles" screen: a comma-separated list is parsed as at creation,
  split into roles that are new and roles that case-insensitively equal an
  existing one, and the new ones are merged into `roles` with `arrayUnion`.
 */
module AddRolesActivity {
  import opened Wrappers
  import opened JavaString
  import opened Domain
  import opened ArrayUnion
  import opened CreateInstitutionActivity

  /** `existingRole.equalsIgnoreCase(role)` holds for some existing role. */
  predicate IsDuplicate(role: string, existing: seq<string>) {
    exists e :: e in existing && EqualsIgnoreCase(e, role)
  }

  /** The parsed roles that are new, in input order. */
  function RolesToAdd(parsed: seq<string>, existing: seq<string>): (r: seq<string>)
    ensures |r| <= |parsed|
  {
    if parsed == [] then []
    else (if IsDuplicate(parsed[0], existing) then [] else [parsed[0]]) + RolesToAdd(parsed[1..], existing)
  }

  /** The parsed roles that already exist up to case, in input order. */
  function Duplicates(parsed: seq<string>, existing: seq<string>): (r: seq<string>)
    ensures |r| <= |parsed|
  {
    if parsed == [] then []
    else (if IsDuplicate(parsed[0], existing) then [parsed[0]] else []) + Duplicates(parsed[1..], existing)
  }

  /** Both directions: a role is added iff it was parsed and is new; it is a duplicate iff parsed and not new. */
  lemma {:induction false} PartitionMembership(parsed: seq<string>, existing: seq<string>, x: string)
    ensures x in RolesToAdd(parsed, existing) <==> x in parsed && !IsDuplicate(x, existing)
    ensures x in Duplicates(parsed, existing) <==> x in parsed && IsDuplicate(x, existing)
  {
    if parsed != [] {
      PartitionMembership(parsed[1..], existing, x);
      assert x in parsed <==> x == parsed[0] || x in parsed[1..];
    }
  }

  /** Every parsed role lands in exactly one of the two lists: nothing lost, nothing repeated. */
  lemma {:induction false} PartitionIsExact(parsed: seq<string>, existing: seq<string>)
    ensures multiset(RolesToAdd(parsed, existing)) + multiset(Duplicates(parsed, existing)) == multiset(parsed)
  {
    if parsed != [] {
      var x, rest := parsed[0], parsed[1..];
      var a, d := RolesToAdd(rest, existing), Duplicates(rest, existing);
      PartitionIsExact(rest, existing);
      assert parsed == [x] + rest;
      assert multiset(parsed) == multiset{x} + multiset(rest);
      if IsDuplicate(x, existing) {
        assert RolesToAdd(parsed, existing) == a;
        assert Duplicates(parsed, existing) == [x] + d;
        assert multiset([x] + d) == multiset{x} + multiset(d);
      } else {
        assert RolesToAdd(parsed, existing) == [x] + a;
        assert Duplicates(parsed, existing) == d;
        assert multiset([x] + a) == multiset{x} + multiset(a);
      }
    }
  }

  /** Both filters keep input order: they distribute over concatenation. */
  lemma PartitionConcat(a: seq<string>, b: seq<string>, existing: seq<string>)
    ensures RolesToAdd(a + b, existing) == RolesToAdd(a, existing) + RolesToAdd(b, existing)
    ensures Duplicates(a + b, existing) == Duplicates(a, existing) + Duplicates(b, existing)
  {
    RolesToAddConcat(a, b, existing);
    DuplicatesConcat(a, b, existing);
  }

  lemma {:induction false} RolesToAddConcat(a: seq<string>, b: seq<string>, existing: seq<string>)
    ensures RolesToAdd(a + b, existing) == RolesToAdd(a, existing) + RolesToAdd(b, existing)
  {
    if a == [] {
      assert a + b == b;
    } else {
      var ab := a + b;
      assert ab[0] == a[0] && ab[1..] == a[1..] + b;
      RolesToAddConcat(a[1..], b, existing);
      var head := if IsDuplicate(a[0], existing) then [] else [a[0]];
      var restA, restB := RolesToAdd(a[1..], existing), RolesToAdd(b, existing);
      assert RolesToAdd(ab, existing) == head + (restA + restB);
      assert head + (restA + restB) == (head + restA) + restB;
    }
  }

  lemma {:induction false} DuplicatesConcat(a: seq<string>, b: seq<string>, existing: seq<string>)
    ensures Duplicates(a + b, existing) == Duplicates(a, existing) + Duplicates(b, existing)
  {
    if a == [] {
      assert a + b == b;
    } else {
      var ab := a + b;
      assert ab[0] == a[0] && ab[1..] == a[1..] + b;
      DuplicatesConcat(a[1..], b, existing);
      var head := if IsDuplicate(a[0], existing) then [a[0]] else [];
      var restA, restB := Duplicates(a[1..], existing), Duplicates(b, existing);
      assert Duplicates(ab, existing) == head + (restA + restB);
      assert head + (restA + restB) == (head + restA) + restB;
    }
  }

  /** Appending one role extends exactly one of the two lists. */
  lemma PartitionStep(prefix: seq<string>, role: string, existing: seq<string>)
    ensures RolesToAdd(prefix + [role], existing)
      == RolesToAdd(prefix, existing) + (if IsDuplicate(role, existing) then [] else [role])
    ensures Duplicates(prefix + [role], existing)
      == Duplicates(prefix, existing) + (if IsDuplicate(role, existing) then [role] else [])
  {
    PartitionConcat(prefix, [role], existing);
    assert [role][1..] == [];
  }

  /**
    The nested scan of `addNewRoles`: each new role is compared with every
    current role until the first case-insensitive match.
   */
  method Partition(newRoles: seq<string>, currentRoles: seq<string>) returns (rolesToAdd: seq<string>, duplicates: seq<string>)
    ensures rolesToAdd == RolesToAdd(newRoles, currentRoles)
    ensures duplicates == Duplicates(newRoles, currentRoles)
  {
    rolesToAdd := [];
    duplicates := [];
    var i := 0;
    while i < |newRoles|
      invariant 0 <= i <= |newRoles|
      invariant rolesToAdd == RolesToAdd(newRoles[..i], currentRoles)
      invariant duplicates == Duplicates(newRoles[..i], currentRoles)
    {
      var role := newRoles[i];
      var isDuplicate := false;
      var j := 0;
      while j < |currentRoles|
        invariant 0 <= j <= |currentRoles|
        invariant !isDuplicate
        invariant forall k :: 0 <= k < j ==> !EqualsIgnoreCase(currentRoles[k], role)
      {
        if EqualsIgnoreCase(currentRoles[j], role) {
          isDuplicate := true;
          break;
        }
        j := j + 1;
      }
      assert isDuplicate <==> IsDuplicate(role, currentRoles);
      assert newRoles[..i + 1] == newRoles[..i] + [role];
      PartitionStep(newRoles[..i], role, currentRoles);
      if isDuplicate {
        duplicates := duplicates + [role];
      } else {
        rolesToAdd := rolesToAdd + [role];
      }
      i := i + 1;
    }
    assert newRoles[..i] == newRoles;
  }

  /** The institution's roles after the union: the old ones, then the new ones not exactly present. */
  function GrownRoles(existing: seq<string>, parsed: seq<string>): (r: seq<string>)
    ensures existing <= r
    ensures forall p :: p in parsed ==> exists x :: x in r && EqualsIgnoreCase(x, p)
    ensures forall x :: x in r ==> x in existing || x in parsed
    ensures forall x :: x in r[|existing|..] ==> x in parsed && !IsDuplicate(x, existing)
    ensures forall p :: p in parsed && !IsDuplicate(p, existing) ==> p in r[|existing|..]
    ensures NoDuplicates(r[|existing|..])
  {
    UnionCoversParsed(existing, parsed);
    UnionFromInputs(existing, parsed);
    UnionAppendsOnlyNew(existing, parsed);
    UnionAppendsAllNew(existing, parsed);
    Union(existing, RolesToAdd(parsed, existing))
  }

  /** Every parsed role is in the union up to case: exactly when new, as an equal-ignoring-case old role otherwise. */
  lemma UnionCoversParsed(existing: seq<string>, parsed: seq<string>)
    ensures var r := Union(existing, RolesToAdd(parsed, existing));
      forall p :: p in parsed ==> exists x :: x in r && EqualsIgnoreCase(x, p)
  {
    var r := Union(existing, RolesToAdd(parsed, existing));
    forall p | p in parsed ensures exists x :: x in r && EqualsIgnoreCase(x, p) {
      PartitionMembership(parsed, existing, p);
      assert EqualsIgnoreCase(p, p);
    }
  }

  /** The union holds only old and parsed roles. */
  lemma UnionFromInputs(existing: seq<string>, parsed: seq<string>)
    ensures var r := Union(existing, RolesToAdd(parsed, existing));
      forall x :: x in r ==> x in existing || x in parsed
  {
    var r := Union(existing, RolesToAdd(parsed, existing));
    forall x | x in r ensures x in existing || x in parsed {
      PartitionMembership(parsed, existing, x);
    }
  }

  /** What the union appends are parsed roles that equal no old role ignoring case. */
  lemma UnionAppendsOnlyNew(existing: seq<string>, parsed: seq<string>)
    ensures var r := Union(existing, RolesToAdd(parsed, existing));
      forall x :: x in r[|existing|..] ==> x in parsed && !IsDuplicate(x, existing)
  {
    var r := Union(existing, RolesToAdd(parsed, existing));
    forall x | x in r[|existing|..] ensures x in parsed && !IsDuplicate(x, existing) {
      PartitionMembership(parsed, existing, x);
    }
  }

  /** Every parsed role that equals no old role ignoring case is appended. */
  lemma UnionAppendsAllNew(existing: seq<string>, parsed: seq<string>)
    ensures var r := Union(existing, RolesToAdd(parsed, existing));
      forall p :: p in parsed && !IsDuplicate(p, existing) ==> p in r[|existing|..]
  {
    var r := Union(existing, RolesToAdd(parsed, existing));
    forall p | p in parsed && !IsDuplicate(p, existing) ensures p in r[|existing|..] {
      PartitionMembership(parsed, existing, p);
      assert p !in existing by {
        if p in existing {
          assert EqualsIgnoreCase(p, p);
        }
      }
      assert r == existing + r[|existing|..];
    }
  }

  /**
    The whole "add roles" action on institution `institutionId`. `readOk` is
    the success of the read of current roles, `writeOk` that of the update.
   */
  function AddRoles(s: Store, institutionId: string, input: string, readOk: bool, writeOk: bool): (o: Outcome)
    ensures !o.PartialWrite?
    ensures Trim(input) == [] ==> o == Rejected(RolesMissing)
    ensures Trim(input) != [] && ParseRoles(Trim(input)) == [] ==> o == Rejected(NoValidRoles)
    ensures ParseRoles(Trim(input)) != [] && readOk && !HasInstitution(s.institutions, institutionId) ==>
      o == Rejected(InstitutionNotFound)
    ensures o.Ok? ==>
      && readOk && writeOk
      && var k := FindInstitution(s.institutions, institutionId).value;
      var parsed := ParseRoles(Trim(input));
      && |o.store.institutions| == |s.institutions|
      && (forall i :: 0 <= i < |s.institutions| && i != k ==> o.store.institutions[i] == s.institutions[i])
      && o.store.institutions[k] == s.institutions[k].(roles := Some(GrownRoles(RolesOf(s.institutions[k]), parsed)))
      && RolesToAdd(parsed, RolesOf(s.institutions[k])) != []
      && o.store.users == s.users && o.store.reports == s.reports
    ensures o.Ok? <==>
      && Trim(input) != [] && ParseRoles(Trim(input)) != [] && readOk && writeOk
      && HasInstitution(s.institutions, institutionId)
      && RolesToAdd(ParseRoles(Trim(input)), RolesOf(s.institutions[FindInstitution(s.institutions, institutionId).value])) != []
    ensures o == Rejected(StoreFailure) <==>
      && Trim(input) != [] && ParseRoles(Trim(input)) != []
      && (|| !readOk
          || (&& HasInstitution(s.institutions, institutionId) && !writeOk
              && RolesToAdd(ParseRoles(Trim(input)), RolesOf(s.institutions[FindInstitution(s.institutions, institutionId).value])) != []))
    ensures o == Rejected(AllRolesExist) <==>
      && ParseRoles(Trim(input)) != [] && readOk
      && HasInstitution(s.institutions, institutionId)
      && var k := FindInstitution(s.institutions, institutionId).value;
      RolesToAdd(ParseRoles(Trim(input)), RolesOf(s.institutions[k])) == []
  {
    if Trim(input) == [] then Rejected(RolesMissing)
    else
      var parsed := ParseRoles(Trim(input));
      if parsed == [] then Rejected(NoValidRoles)
      else if !readOk then Rejected(StoreFailure)
      else
        match FindInstitution(s.institutions, institutionId)
        case None => Rejected(InstitutionNotFound)
        case Some(k) =>
          var inst := s.institutions[k];
          var current := RolesOf(inst);
          if RolesToAdd(parsed, current) == [] then Rejected(AllRolesExist)
          else if !writeOk then Rejected(StoreFailure)
          else Ok(s.(institutions := s.institutions[k := inst.(roles := Some(GrownRoles(current, parsed)))]))
  }

  /** Roles only grow: the old list is an unchanged prefix of the new one, which is strictly longer. */
  lemma AddRolesAppendOnly(s: Store, institutionId: string, input: string, readOk: bool, writeOk: bool)
    requires AddRoles(s, institutionId, input, readOk, writeOk).Ok?
    ensures var s' := AddRoles(s, institutionId, input, readOk, writeOk).store;
      var k := FindInstitution(s.institutions, institutionId).value;
      && RolesOf(s.institutions[k]) < RolesOf(s'.institutions[k])
      && s'.institutions[k].managerRoleName == s.institutions[k].managerRoleName
  {
    var k := FindInstitution(s.institutions, institutionId).value;
    var current := RolesOf(s.institutions[k]);
    var parsed := ParseRoles(Trim(input));
    var toAdd := RolesToAdd(parsed, current);
    var grown := GrownRoles(current, parsed);
    assert toAdd[0] in toAdd;
    PartitionMembership(parsed, current, toAdd[0]);
    assert EqualsIgnoreCase(toAdd[0], toAdd[0]);
    assert toAdd[0] !in current;
    assert toAdd[0] in grown;
  }

  /** The manager role stays among the roles when roles are added. */
  lemma AddRolesKeepsManagerRole(s: Store, institutionId: string, input: string, readOk: bool, writeOk: bool)
    requires AddRoles(s, institutionId, input, readOk, writeOk).Ok?
    requires var k := FindInstitution(s.institutions, institutionId).value;
      s.institutions[k].managerRoleName.Some? && s.institutions[k].managerRoleName.value in RolesOf(s.institutions[k])
    ensures var s' := AddRoles(s, institutionId, input, readOk, writeOk).store;
      var k := FindInstitution(s.institutions, institutionId).value;
      s'.institutions[k].managerRoleName.value in RolesOf(s'.institutions[k])
  {
    AddRolesAppendOnly(s, institutionId, input, readOk, writeOk);
  }

  /** When every parsed role is a duplicate there is nothing to add. */
  lemma {:induction false} AllDuplicatesAddNothing(parsed: seq<string>, existing: seq<string>)
    requires forall p :: p in parsed ==> IsDuplicate(p, existing)
    ensures RolesToAdd(parsed, existing) == []
  {
    if parsed != [] {
      assert parsed[0] in parsed;
      AllDuplicatesAddNothing(parsed[1..], existing);
    }
  }

  /**
    Idempotence: repeating a successful input finds every parsed role already
    present, so the second call writes nothing.
   */
  lemma AddRolesIdempotent(s: Store, institutionId: string, input: string, writeOk: bool, writeOk2: bool)
    requires AddRoles(s, institutionId, input, true, writeOk).Ok?
    ensures var s' := AddRoles(s, institutionId, input, true, writeOk).store;
      AddRoles(s', institutionId, input, true, writeOk2) == Rejected(AllRolesExist)
  {
    var s' := AddRoles(s, institutionId, input, true, writeOk).store;
    var k := FindInstitution(s.institutions, institutionId).value;
    var parsed := ParseRoles(Trim(input));
    var grown := RolesOf(s'.institutions[k]);
    assert FindInstitution(s'.institutions, institutionId) == Some(k) by {
      assert forall i :: 0 <= i < k ==> s'.institutions[i].id == s.institutions[i].id;
    }
    assert forall p :: p in parsed ==> IsDuplicate(p, grown);
    AllDuplicatesAddNothing(parsed, grown);
    AllExistRejected(s', institutionId, input, writeOk2);
  }

  /** The "all roles exist" rejection, read off the contract of `AddRoles` for a successful read. */
  lemma AllExistRejected(s: Store, institutionId: string, input: string, writeOk: bool)
    requires Trim(input) != [] && ParseRoles(Trim(input)) != []
    requires HasInstitution(s.institutions, institutionId)
    requires RolesToAdd(ParseRoles(Trim(input)), RolesOf(s.institutions[FindInstitution(s.institutions, institutionId).value])) == []
    ensures AddRoles(s, institutionId, input, true, writeOk) == Rejected(AllRolesExist)
  {
  }

  /** Two parsed roles joined by a comma parse back to exactly those two roles. */
  lemma ParseTwoRoles(a: string, b: string)
    requires IsParsedRole(a) && IsParsedRole(b)
    ensures ParseRoles(Trim(a + [','] + b)) == [a, b]
  {
    var input := a + [','] + b;
    assert input[0] == a[0] && input[|input| - 1] == b[|b| - 1];
    TrimOfTrimmed(input);
    ParseRolesConcat(a, b);
    ParseRolesSingle(a);
    ParseRolesSingle(b);
  }

  /** When no parsed role is a duplicate, every one of them is to be added. */
  lemma {:induction false} NoDuplicatesAddAll(parsed: seq<string>, existing: seq<string>)
    requires forall i :: 0 <= i < |parsed| ==> !IsDuplicate(parsed[i], existing)
    ensures RolesToAdd(parsed, existing) == parsed
  {
    if parsed != [] {
      NoDuplicatesAddAll(parsed[1..], existing);
      assert parsed == [parsed[0]] + parsed[1..];
    }
  }

  /** Case variants of one another are duplicates of the same existing roles. */
  lemma DuplicateOfCaseVariant(a: string, b: string, existing: seq<string>)
    requires EqualsIgnoreCase(a, b)
    ensures IsDuplicate(a, existing) <==> IsDuplicate(b, existing)
  {
    EqualsIgnoreCasePointwise(a, b);
    forall e | e in existing ensures EqualsIgnoreCase(e, a) <==> EqualsIgnoreCase(e, b) {
      EqualsIgnoreCasePointwise(e, a);
      EqualsIgnoreCasePointwise(e, b);
    }
  }

  /** Two new case variants of one role are both to be added, and both are appended in order. */
  lemma GrownByNewCaseVariants(existing: seq<string>, a: string, b: string)
    requires a != b && EqualsIgnoreCase(a, b)
    requires !IsDuplicate(a, existing)
    ensures RolesToAdd([a, b], existing) == [a, b]
    ensures GrownRoles(existing, [a, b]) == existing + [a, b]
  {
    DuplicateOfCaseVariant(a, b, existing);
    NoDuplicatesAddAll([a, b], existing);
    assert EqualsIgnoreCase(a, a) && EqualsIgnoreCase(b, b);
    UnionOfFresh(existing, [a, b]);
  }

  /**
    Duplicates are looked for only among existing roles: two case variants of
    one new role in a single input are both appended, in input order.
   */
  lemma AddRolesKeepsNewCaseVariants(s: Store, institutionId: string, a: string, b: string)
    requires IsParsedRole(a) && IsParsedRole(b)
    requires a != b && EqualsIgnoreCase(a, b)
    requires HasInstitution(s.institutions, institutionId)
    requires !IsDuplicate(a, RolesOf(s.institutions[FindInstitution(s.institutions, institutionId).value]))
    ensures var o := AddRoles(s, institutionId, a + [','] + b, true, true);
      var k := FindInstitution(s.institutions, institutionId).value;
      o.Ok? && RolesOf(o.store.institutions[k]) == RolesOf(s.institutions[k]) + [a, b]
  {
    var k := FindInstitution(s.institutions, institutionId).value;
    ParseTwoRoles(a, b);
    GrownByNewCaseVariants(RolesOf(s.institutions[k]), a, b);
  }
}

=== FILE: array_union.dfy ===
/**
  Firestore's `FieldValue.arrayUnion(values...)` field transform: each value not
  already exactly present in the array is appended, in the order given.
 */
module ArrayUnion {

  function Union(arr: seq<string>, values: seq<string>): (r: seq<string>)
    ensures arr <= r
    ensures forall v :: v in values ==> v in r
    ensures forall x :: x in r ==> x in arr || x in values
    ensures forall x :: x in r[|arr|..] ==> x in values && x !in arr
    ensures NoDuplicates(r[|arr|..])
    decreases |values|
  {
    if values == [] then arr
    else
      var arr' := if values[0] in arr then arr else arr + [values[0]];
      var r := Union(arr', values[1..]);
      assert values[0] in arr' && arr' <= r;
      assert values == [values[0]] + values[1..];
      if values[0] in arr then r
      else
        assert r[|arr|..] == [values[0]] + r[|arr'|..];
        assert values[0] !in r[|arr'|..];
        r
  }

  /** A union whose values are all present already leaves the array as it is. */
  lemma {:induction false} UnionOfPresent(arr: seq<string>, values: seq<string>)
    requires forall v :: v in values ==> v in arr
    ensures Union(arr, values) == arr
    decreases |values|
  {
    if values != [] {
      UnionOfPresent(arr, values[1..]);
    }
  }

  /** No element occurs twice. */
  predicate NoDuplicates(s: seq<string>) {
    forall i, j :: 0 <= i < j < |s| ==> s[i] != s[j]
  }

  /** The union never introduces a repeated element. */
  lemma {:induction false} UnionKeepsNoDuplicates(arr: seq<string>, values: seq<string>)
    requires NoDuplicates(arr)
    ensures NoDuplicates(Union(arr, values))
    decreases |values|
  {
    if values != [] {
      var arr' := if values[0] in arr then arr else arr + [values[0]];
      assert NoDuplicates(arr');
      UnionKeepsNoDuplicates(arr', values[1..]);
    }
  }

  /** One step of the union: an absent first value is appended before the rest is merged. */
  lemma UnionStep(arr: seq<string>, values: seq<string>)
    requires values != [] && values[0] !in arr
    ensures Union(arr, values) == Union(arr + [values[0]], values[1..])
  {
  }

  /** Values that are all absent and pairwise distinct are appended as they are. */
  lemma {:induction false} UnionOfFresh(arr: seq<string>, values: seq<string>)
    requires NoDuplicates(values)
    requires forall i :: 0 <= i < |values| ==> values[i] !in arr
    ensures Union(arr, values) == arr + values
    decreases |values|
  {
    if values != [] {
      var arr' := arr + [values[0]];
      var rest := values[1..];
      forall i | 0 <= i < |rest| ensures rest[i] !in arr' {
        assert rest[i] == values[i + 1] && values[i + 1] != values[0] && values[i + 1] !in arr;
      }
      forall i, j | 0 <= i < j < |rest| ensures rest[i] != rest[j] {
        assert rest[i] == values[i + 1] && rest[j] == values[j + 1];
      }
      UnionStep(arr, values);
      UnionOfFresh(arr', rest);
      assert arr' + rest == arr + values;
    }
  }
}

=== FILE: create_institution.dfy ===
/**
  The "create institution" screen: a name and a comma-separated role list
  become a new `institutions` document whose first role is the creator's
  manager role, then the creator's user document gains the matching manager
  membership. The two writes are not transactional.
 */
module CreateInstitutionActivity {
  import opened Wrappers
  import opened JavaString
  import opened Domain

  // ---------------------------------------------------------------------------
  // Role list parsing (shared with the "add roles" screen)
  // ---------------------------------------------------------------------------

  /** What every parsed role looks like: non-empty, trimmed, comma-free. */
  predicate IsParsedRole(r: string) {
    r != [] && Trim(r) == r && ',' !in r
  }

  /** Trims every segment and drops the ones left empty, keeping segment order. */
  function KeepRoles(segments: seq<string>): (roles: seq<string>)
    ensures |roles| <= |segments|
    ensures forall r :: r in roles ==> r != [] && Trim(r) == r
    ensures (forall seg :: seg in segments ==> ',' !in seg) ==> forall r :: r in roles ==> ',' !in r
  {
    if segments == [] then []
    else
      var t := Trim(segments[0]);
      TrimIdempotent(segments[0]);
      TrimChars(segments[0]);
      (if t == [] then [] else [t]) + KeepRoles(segments[1..])
  }

  /** `parseRoles`: split on ',', trim each piece, drop empties. Duplicates are kept. */
  function ParseRoles(input: string): (roles: seq<string>)
    ensures forall r :: r in roles ==> IsParsedRole(r)
  {
    KeepRoles(Split(input, ','))
  }

  lemma {:induction false} KeepRolesConcat(a: seq<string>, b: seq<string>)
    ensures KeepRoles(a + b) == KeepRoles(a) + KeepRoles(b)
  {
    if a == [] {
      assert a + b == b;
    } else {
      assert (a + b)[0] == a[0];
      assert (a + b)[1..] == a[1..] + b;
      KeepRolesConcat(a[1..], b);
    }
  }

  /**
    Parsing keeps the input order: the roles of `a,b` are the roles of `a`
    followed by the roles of `b`.
   */
  lemma ParseRolesConcat(a: string, b: string)
    ensures ParseRoles(a + [','] + b) == ParseRoles(a) + ParseRoles(b)
  {
    SplitConcat(a, b, ',');
    KeepRolesConcat(Split(a, ','), Split(b, ','));
  }

  /** A role is kept exactly when some non-blank segment trims to it. */
  lemma {:induction false} KeepRolesMembership(segments: seq<string>, r: string)
    ensures r in KeepRoles(segments) <==> r != [] && exists seg :: seg in segments && Trim(seg) == r
  {
    if segments != [] {
      KeepRolesMembership(segments[1..], r);
      assert forall seg :: seg in segments <==> seg == segments[0] || seg in segments[1..];
    }
  }

  /** Both directions: `r` is parsed from `input` iff it is the non-empty trim of a segment. */
  lemma ParseRolesMembership(input: string, r: string)
    ensures r in ParseRoles(input) <==> r != [] && exists seg :: seg in Split(input, ',') && Trim(seg) == r
  {
    KeepRolesMembership(Split(input, ','), r);
  }

  /** A comma-free piece of input contributes exactly its trim, if non-empty. */
  lemma ParseRolesSingle(piece: string)
    requires ',' !in piece
    ensures ParseRoles(piece) == if Trim(piece) == [] then [] else [Trim(piece)]
  {
    SplitNoSeparator(piece, ',');
  }

  /**
    Parsing does not deduplicate: two comma-free pieces give their two trims,
    even when those are case variants of one role.
   */
  lemma ParseRolesKeepsCaseVariants(a: string, b: string)
    requires ',' !in a && ',' !in b
    requires Trim(a) != [] && Trim(b) != []
    ensures ParseRoles(a + [','] + b) == [Trim(a), Trim(b)]
  {
    ParseRolesConcat(a, b);
    ParseRolesSingle(a);
    ParseRolesSingle(b);
  }

  /** "HR, hr" yields both "HR" and "hr". */
  lemma ParseRolesOfUpperAndLowerHr()
    ensures ParseRoles("HR, hr") == ["HR", "hr"]
  {
    var upper, spacedLower := "HR", " hr";
    assert Trim(upper) == "HR" by { TrimOfTrimmed(upper); }
    assert Trim(spacedLower) == "hr" by {
      assert TrimStart(spacedLower) == TrimStart("hr");
      TrimOfTrimmed("hr");
    }
    ParseRolesKeepsCaseVariants(upper, spacedLower);
    assert "HR, hr" == upper + [','] + spacedLower;
  }

  /** Input made only of separators parses to nothing. */
  lemma ParseRolesOfSeparatorsOnly()
    ensures ParseRoles(",,,") == []
  {
    assert ",,," == [] + [','] + ([] + [','] + ([] + [','] + []));
    ParseRolesConcat([], [] + [','] + ([] + [','] + []));
    ParseRolesConcat([], [] + [','] + []);
    ParseRolesConcat([], []);
    ParseRolesSingle([]);
  }

  // ---------------------------------------------------------------------------
  // Creating the institution
  // ---------------------------------------------------------------------------

  /** The `institutions` document built by `createInstitutionInFirestore`. */
  function NewInstitution(id: string, name: string, creator: string, roles: seq<string>, now: int): (inst: Institution)
    requires roles != []
    ensures inst.managerRoleName.Some? && inst.managerRoleName.value in RolesOf(inst)
  {
    Institution(id, Some(name), [creator], Some(creator), Some(roles[0]), Some(roles), now)
  }

  /**
    `updateManagerInstitution`'s patch of the creator: the membership list gains
    one manager entry at the end, the legacy `roleName` and `institutionId`
    mirrors are overwritten, and nothing else changes.
   */
  function WithManagerMembership(u: User, institutionId: string, managerRoleName: string): (u': User)
    ensures MembershipsOf(u') == MembershipsOf(u) + [Membership(Some(institutionId), Some(managerRoleName), Some(true))]
    ensures u'.roleName == Some(managerRoleName) && u'.institutionId == Some(institutionId)
    ensures u'.(memberships := u.memberships, roleName := u.roleName, institutionId := u.institutionId) == u
  {
    var entry := Membership(Some(institutionId), Some(managerRoleName), Some(true));
    u.(memberships := Some(MembershipsOf(u) + [entry]),
       roleName := Some(managerRoleName),
       institutionId := Some(institutionId))
  }

  /** Why `handleCreateInstitution` stops before writing, if it does. */
  function CreateCheck(nameInput: string, rolesInput: string): (r: Option<Reason>)
    ensures r.None? <==> Trim(nameInput) != [] && ParseRoles(Trim(rolesInput)) != []
    ensures r == Some(NameMissing) <==> Trim(nameInput) == []
    ensures r == Some(RolesMissing) <==> Trim(nameInput) != [] && Trim(rolesInput) == []
    ensures r == Some(NoValidRoles) <==> Trim(nameInput) != [] && Trim(rolesInput) != [] && ParseRoles(Trim(rolesInput)) == []
  {
    if Trim(nameInput) == [] then Some(NameMissing)
    else if Trim(rolesInput) == [] then Some(RolesMissing)
    else if ParseRoles(Trim(rolesInput)) == [] then Some(NoValidRoles)
    else None
  }

  /**
    The whole "create" action. `newId` is the id the store assigns, `now` the
    clock reading; `insertOk` says whether the institution insert succeeded and
    `profileOk` whether the follow-up reads and the user update did.
   */
  function CreateInstitution(s: Store, creator: string, nameInput: string, rolesInput: string,
                             newId: string, now: int, insertOk: bool, profileOk: bool): (o: Outcome)
    requires !HasInstitution(s.institutions, newId)
    ensures CreateCheck(nameInput, rolesInput).Some? ==> o == Rejected(CreateCheck(nameInput, rolesInput).value)
    ensures CreateCheck(nameInput, rolesInput).None? && !insertOk ==> o == Rejected(StoreFailure)
    ensures o.Rejected? ==> CreateCheck(nameInput, rolesInput).Some? || !insertOk
    ensures !o.Rejected? ==>
      var roles := ParseRoles(Trim(rolesInput));
      var insts := o.store.institutions;
      && |insts| == |s.institutions| + 1
      && insts[..|s.institutions|] == s.institutions
      && insts[|s.institutions|].id == newId
      && insts[|s.institutions|].institutionName == Some(Trim(nameInput))
      && insts[|s.institutions|].managerIds == [creator]
      && insts[|s.institutions|].managerId == Some(creator)
      && insts[|s.institutions|].roles == Some(roles)
      && insts[|s.institutions|].managerRoleName == Some(roles[0])
      && insts[|s.institutions|].createdAt == now
      && o.store.reports == s.reports
    ensures o.Ok? ==>
      && creator in s.users
      && o.store.users == s.users[creator := WithManagerMembership(s.users[creator], newId, ParseRoles(Trim(rolesInput))[0])]
    ensures o.PartialWrite? ==> o.store.users == s.users && o.reason == ProfileNotUpdated
    ensures o.PartialWrite? <==> CreateCheck(nameInput, rolesInput).None? && insertOk && (!profileOk || creator !in s.users)
  {
    match CreateCheck(nameInput, rolesInput)
    case Some(reason) => Rejected(reason)
    case None =>
      var roles := ParseRoles(Trim(rolesInput));
      if !insertOk then Rejected(StoreFailure)
      else
        var inst := NewInstitution(newId, Trim(nameInput), creator, roles, now);
        var s1 := s.(institutions := s.institutions + [inst]);
        // A missing user document makes Firestore's `update` fail.
        if !profileOk || creator !in s.users then PartialWrite(s1, ProfileNotUpdated)
        else Ok(s1.(users := s.users[creator := WithManagerMembership(s.users[creator], newId, roles[0])]))
  }

  /** A new institution's manager role is one of its roles. */
  lemma CreatedManagerRoleIsARole(s: Store, creator: string, nameInput: string, rolesInput: string,
                                  newId: string, now: int, insertOk: bool, profileOk: bool)
    requires !HasInstitution(s.institutions, newId)
    requires !CreateInstitution(s, creator, nameInput, rolesInput, newId, now, insertOk, profileOk).Rejected?
    ensures var inst := Last(CreateInstitution(s, creator, nameInput, rolesInput, newId, now, insertOk, profileOk).store.institutions);
      inst.managerRoleName.Some? && inst.managerRoleName.value in RolesOf(inst)
  {
  }

  function Last(insts: seq<Institution>): Institution
    requires insts != []
  {
    insts[|insts| - 1]
  }

  /** Creating an institution keeps the store consistent, whether or not the profile update lands. */
  lemma CreatePreservesConsistency(s: Store, creator: string, nameInput: string, rolesInput: string,
                                   newId: string, now: int, insertOk: bool, profileOk: bool)
    requires !HasInstitution(s.institutions, newId)
    requires Consistent(s)
    requires !CreateInstitution(s, creator, nameInput, rolesInput, newId, now, insertOk, profileOk).Rejected?
    ensures Consistent(CreateInstitution(s, creator, nameInput, rolesInput, newId, now, insertOk, profileOk).store)
  {
    var o := CreateInstitution(s, creator, nameInput, rolesInput, newId, now, insertOk, profileOk);
    var s' := o.store;
    assert forall id :: HasInstitution(s.institutions, id) ==> HasInstitution(s'.institutions, id) by {
      forall id | HasInstitution(s.institutions, id) ensures HasInstitution(s'.institutions, id) {
        var i :| 0 <= i < |s.institutions| && s.institutions[i].id == id;
        assert s'.institutions[i] == s.institutions[i];
      }
    }
    assert HasInstitution(s'.institutions, newId) by {
      assert s'.institutions[|s.institutions|].id == newId;
    }
    if o.Ok? {
      var ms := MembershipsOf(s.users[creator]);
      var ms' := MembershipsOf(s'.users[creator]);
      assert !HasMembershipIn(ms, newId);
      assert UniqueMemberships(ms') by {
        forall i, j | 0 <= i < j < |ms'| && ms'[i].institutionId.Some?
          ensures ms'[i].institutionId != ms'[j].institutionId
        {
          if j == |ms| {
            assert ms'[i] == ms[i];
          }
        }
      }
    }
  }
}

=== FILE: domain.dfy ===
/**
  The documents of the three Firestore collections (`users`, `institutions`,
  `reports`) as immutable records, the in-memory store that holds them, and the
  outcome every screen handler returns.
 */
module Domain {
  import opened Wrappers

  /**
    One entry of a user's `institutions` array. Every key may be absent in a
    stored document, so each is optional; the screens write all three.
   */
  datatype Membership = Membership(
    institutionId: Option<string>,
    role: Option<string>,
    isManager: Option<bool>)

  /**
    A `users/{userId}` document. `memberships` is the `institutions` array
    (absent when the field is missing); `roleName`, `institutionId` and
    `userRole` are the legacy single-institution mirrors.
   */
  datatype User = User(
    userId: string,
    email: string,
    fullName: string,
    userType: Option<string>,
    memberships: Option<seq<Membership>>,
    roleName: Option<string>,
    institutionId: Option<string>,
    userRole: Option<string>)

  /** An `institutions/{id}` document; `managerId` is the legacy scalar mirror of `managerIds`. */
  datatype Institution = Institution(
    id: string,
    institutionName: Option<string>,
    managerIds: seq<string>,
    managerId: Option<string>,
    managerRoleName: Option<string>,
    roles: Option<seq<string>>,
    createdAt: int)

  /** A `reports/{id}` document. */
  datatype Report = Report(
    id: string,
    userId: Option<string>,
    institutionId: Option<string>,
    institutionName: Option<string>,
    userRole: Option<string>,
    title: Option<string>,
    description: Option<string>,
    status: Option<string>,
    managerResponse: Option<string>,
    createdAt: Option<int>,
    updatedAt: Option<int>)

  /**
    The document store: users keyed by id, institutions and reports in the
    order a collection scan returns them.
   */
  datatype Store = Store(
    users: map<string, User>,
    institutions: seq<Institution>,
    reports: seq<Report>)

  /** Why a handler stopped without completing its writes. */
  datatype Reason =
    | NameMissing
    | RolesMissing
    | NoValidRoles
    | InstitutionNotFound
    | AllRolesExist
    | NoRoleSelected
    | AlreadyJoined
    | TitleMissing
    | DescriptionMissing
    | InstitutionIdMissing
    | ReportIdMissing
    | ReportNotFound
    | StoreFailure
    | ProfileNotUpdated

  /**
    The result of one screen action: every write done, nothing written, or the
    first of two non-transactional writes done and the second not.
   */
  datatype Outcome =
    | Ok(store: Store)
    | Rejected(reason: Reason)
    | PartialWrite(store: Store, reason: Reason)

  /** The `institutions` array with a missing field read as empty. */
  function MembershipsOf(u: User): seq<Membership> {
    u.memberships.GetOr([])
  }

  /** The `roles` array with a missing field read as empty. */
  function RolesOf(inst: Institution): seq<string> {
    inst.roles.GetOr([])
  }

  /** Some membership names the institution. */
  predicate HasMembershipIn(ms: seq<Membership>, institutionId: string) {
    exists i :: 0 <= i < |ms| && ms[i].institutionId == Some(institutionId)
  }

  /** At most one membership per institution. */
  predicate UniqueMemberships(ms: seq<Membership>) {
    forall i, j :: 0 <= i < j < |ms| && ms[i].institutionId.Some? ==> ms[i].institutionId != ms[j].institutionId
  }

  /** Some institution of the store has this document id. */
  predicate HasInstitution(insts: seq<Institution>, id: string) {
    exists i :: 0 <= i < |insts| && insts[i].id == id
  }

  /** Index of the first institution with the given id, as `document(id)` resolves it. */
  function FindInstitution(insts: seq<Institution>, id: string): (r: Option<nat>)
    ensures r.None? <==> !HasInstitution(insts, id)
    ensures r.Some? ==> r.value < |insts| && insts[r.value].id == id
    ensures r.Some? ==> forall k :: 0 <= k < r.value ==> insts[k].id != id
  {
    if insts == [] then None
    else if insts[0].id == id then Some(0)
    else
      match FindInstitution(insts[1..], id)
      case None => None
      case Some(k) => Some(k + 1)
  }

  /** Index of the first report with the given id. */
  function FindReport(reports: seq<Report>, id: string): (r: Option<nat>)
    ensures r.None? <==> forall k :: 0 <= k < |reports| ==> reports[k].id != id
    ensures r.Some? ==> r.value < |reports| && reports[r.value].id == id
    ensures r.Some? ==> forall k :: 0 <= k < r.value ==> reports[k].id != id
  {
    if reports == [] then None
    else if reports[0].id == id then Some(0)
    else
      match FindReport(reports[1..], id)
      case None => None
      case Some(k) => Some(k + 1)
  }

  /**
    A report whose stored status is `""`: the screens render a status with
    `status.substring(0, 1)`, which throws on it.
   */
  predicate HasEmptyStatus(r: Report) {
    r.status == Some([])
  }

  /** Whether some report of `rs` has an empty status. */
  function AnyEmptyStatus(rs: seq<Report>): (b: bool)
    ensures b <==> exists r :: r in rs && HasEmptyStatus(r)
  {
    if rs == [] then false
    else
      assert forall r :: r in rs <==> r == rs[0] || r in rs[1..];
      HasEmptyStatus(rs[0]) || AnyEmptyStatus(rs[1..])
  }

  /**
    The store-wide facts the screens keep: every membership names an existing
    institution, and no user holds two memberships of one institution.
   */
  predicate Consistent(s: Store) {
    forall uid :: uid in s.users ==>
      && UniqueMemberships(MembershipsOf(s.users[uid]))
      && forall m :: m in MembershipsOf(s.users[uid]) && m.institutionId.Some? ==>
           HasInstitution(s.institutions, m.institutionId.value)
  }
}

=== FILE: institution_detail.dfy ===
/**
  The report statistics of the institution detail screen: the number of
  reports of the institution and, per status value, how many of them carry
  that status up to case.
 */
module InstitutionDetailActivity {
  import opened Wrappers
  import opened JavaString
  import opened Domain
  import opened ReportScope

  /** The five numbers shown: the total and the four per-status counts. */
  datatype Stats = Stats(total: nat, pending: nat, investigating: nat, verified: nat, rejected: nat)

  /** The report's status lower-cased is `value`; a missing status matches nothing. */
  predicate HasStatus(r: Report, value: string) {
    r.status.Some? && Lower(r.status.value) == value
  }

  /** The reference count of reports with a given status. */
  function CountStatus(rs: seq<Report>, value: string): (n: nat)
    ensures n <= |rs|
  {
    if rs == [] then 0 else (if HasStatus(rs[0], value) then 1 else 0) + CountStatus(rs[1..], value)
  }

  lemma {:induction false} CountStatusAppend(rs: seq<Report>, x: Report, value: string)
    ensures CountStatus(rs + [x], value) == CountStatus(rs, value) + (if HasStatus(x, value) then 1 else 0)
  {
    if rs != [] {
      assert (rs + [x])[1..] == rs[1..] + [x];
      CountStatusAppend(rs[1..], x, value);
    }
  }

  /**
    The counting loop of `loadReportsStatistics` over a query result: every
    bucket starts at 0 and each report bumps at most one of them, chosen by
    its lower-cased status.
   */
  method CountByStatus(reports: seq<Report>) returns (st: Stats)
    ensures st.total == |reports|
    ensures st.pending == CountStatus(reports, "pending")
    ensures st.investigating == CountStatus(reports, "investigating")
    ensures st.verified == CountStatus(reports, "verified")
    ensures st.rejected == CountStatus(reports, "rejected")
  {
    var pending, investigating, verified, rejected := 0, 0, 0, 0;
    var i := 0;
    while i < |reports|
      invariant 0 <= i <= |reports|
      invariant pending == CountStatus(reports[..i], "pending")
      invariant investigating == CountStatus(reports[..i], "investigating")
      invariant verified == CountStatus(reports[..i], "verified")
      invariant rejected == CountStatus(reports[..i], "rejected")
    {
      var r := reports[i];
      assert reports[..i + 1] == reports[..i] + [r];
      CountStatusAppend(reports[..i], r, "pending");
      CountStatusAppend(reports[..i], r, "investigating");
      CountStatusAppend(reports[..i], r, "verified");
      CountStatusAppend(reports[..i], r, "rejected");
      if r.status.Some? {
        var key := Lower(r.status.value);
        if key == "pending" {
          pending := pending + 1;
        } else if key == "investigating" {
          investigating := investigating + 1;
        } else if key == "verified" {
          verified := verified + 1;
        } else if key == "rejected" {
          rejected := rejected + 1;
        }
      }
      i := i + 1;
    }
    assert reports[..i] == reports;
    st := Stats(|reports|, pending, investigating, verified, rejected);
  }

  /** What the statistics line shows: an error text, or the five numbers. */
  datatype Statistics =
    | StatisticsFailed
    | Shown(stats: Stats)

  /**
    `loadReportsStatistics` for one institution; `readOk` is the success of
    the query. The total counts every report of the institution whatever its
    status.
   */
  method LoadStatistics(s: Store, institutionId: string, readOk: bool) returns (v: Statistics)
    ensures v == StatisticsFailed <==> !readOk
    ensures v.Shown? ==> v.stats.total == |OfInstitution(s.reports, institutionId)|
    ensures v.Shown? ==> v.stats.pending == CountStatus(OfInstitution(s.reports, institutionId), "pending")
    ensures v.Shown? ==> v.stats.investigating == CountStatus(OfInstitution(s.reports, institutionId), "investigating")
    ensures v.Shown? ==> v.stats.verified == CountStatus(OfInstitution(s.reports, institutionId), "verified")
    ensures v.Shown? ==> v.stats.rejected == CountStatus(OfInstitution(s.reports, institutionId), "rejected")
  {
    if !readOk {
      return StatisticsFailed;
    }
    var st := CountByStatus(OfInstitution(s.reports, institutionId));
    v := Shown(st);
  }

  /**
    Each report lands in at most one bucket, and reports with a missing or
    unknown status only count toward the total.
   */
  lemma {:induction false} BucketsWithinTotal(rs: seq<Report>)
    ensures CountStatus(rs, "pending") + CountStatus(rs, "investigating")
          + CountStatus(rs, "verified") + CountStatus(rs, "rejected") <= |rs|
  {
    if rs != [] {
      BucketsWithinTotal(rs[1..]);
    }
  }

  /** The buckets fill the total exactly when every report has one of the four statuses. */
  lemma {:induction false} BucketsFillTotal(rs: seq<Report>)
    requires forall i :: 0 <= i < |rs| ==>
      HasStatus(rs[i], "pending") || HasStatus(rs[i], "investigating")
      || HasStatus(rs[i], "verified") || HasStatus(rs[i], "rejected")
    ensures CountStatus(rs, "pending") + CountStatus(rs, "investigating")
          + CountStatus(rs, "verified") + CountStatus(rs, "rejected") == |rs|
  {
    if rs != [] {
      assert HasStatus(rs[0], "pending") || HasStatus(rs[0], "investigating")
          || HasStatus(rs[0], "verified") || HasStatus(rs[0], "rejected");
      BucketsFillTotal(rs[1..]);
    }
  }
}

=== FILE: java_string.dfy ===
/**
  The few `java.lang.String` operations the screens rely on: `trim`,
  `toLowerCase`, `equalsIgnoreCase`, `split(",")` and the
  first-letter capitalisation used to display statuses. Case mapping is
  ASCII-only.
 */
module JavaString {
  import opened Wrappers

  // ---------------------------------------------------------------------------
  // trim()
  // ---------------------------------------------------------------------------

  /** `String.trim()` strips every leading and trailing char whose code is at most U+0020. */
  predicate IsTrimmable(c: char) {
    c <= ' '
  }

  /** No trimmable char at either end: what `trim()` returns. */
  predicate IsTrimmed(s: string) {
    s == [] || (!IsTrimmable(s[0]) && !IsTrimmable(s[|s| - 1]))
  }

  function TrimStart(s: string): (r: string)
    ensures |r| <= |s|
  {
    if s != [] && IsTrimmable(s[0]) then TrimStart(s[1..]) else s
  }

  function TrimEnd(s: string): (r: string)
    ensures |r| <= |s|
  {
    if s != [] && IsTrimmable(s[|s| - 1]) then TrimEnd(s[..|s| - 1]) else s
  }

  /** `TrimStart` drops a trimmable prefix and stops at a non-trimmable char. */
  lemma {:induction false} TrimStartSpec(s: string)
    ensures var r := TrimStart(s);
      && r == s[|s| - |r|..]
      && (r == [] || !IsTrimmable(r[0]))
      && forall i :: 0 <= i < |s| - |r| ==> IsTrimmable(s[i])
  {
    if s != [] && IsTrimmable(s[0]) {
      TrimStartSpec(s[1..]);
    }
  }

  /** `TrimEnd` drops a trimmable suffix and stops at a non-trimmable char. */
  lemma {:induction false} TrimEndSpec(s: string)
    ensures var r := TrimEnd(s);
      && r == s[..|r|]
      && (r == [] || !IsTrimmable(r[|r| - 1]))
      && forall i :: |r| <= i < |s| ==> IsTrimmable(s[i])
  {
    if s != [] && IsTrimmable(s[|s| - 1]) {
      TrimEndSpec(s[..|s| - 1]);
    }
  }

  /** Java `s.trim()`. */
  function Trim(s: string): (r: string)
    ensures IsTrimmed(r)
    ensures |r| <= |s|
  {
    var t := TrimStart(s);
    TrimStartSpec(s);
    TrimEndSpec(t);
    TrimEnd(t)
  }

  /** `s[i..j]` is an infix of `s` with only trimmable chars before and after it. */
  predicate TrimmedOutside(s: string, i: int, j: int) {
    && 0 <= i <= j <= |s|
    && (forall k :: 0 <= k < i ==> IsTrimmable(s[k]))
    && (forall k :: j <= k < |s| ==> IsTrimmable(s[k]))
  }

  /**
    Trimming removes exactly a prefix and a suffix of trimmable chars: the
    result is the infix `s[i..j]`, and everything outside it is trimmable.
   */
  lemma TrimChars(s: string)
    ensures exists i, j :: TrimmedOutside(s, i, j) && Trim(s) == s[i..j]
    ensures forall c :: c in Trim(s) ==> c in s
  {
    var i, j := TrimBounds(s);
    forall c | c in Trim(s) ensures c in s {
      var k :| 0 <= k < |Trim(s)| && Trim(s)[k] == c;
      assert s[i + k] == c;
    }
  }

  /** The bounds of the infix `Trim(s)` inside `s`. */
  lemma TrimBounds(s: string) returns (i: int, j: int)
    ensures TrimmedOutside(s, i, j) && Trim(s) == s[i..j]
  {
    var t := TrimStart(s);
    TrimStartSpec(s);
    var r := TrimEnd(t);
    TrimEndSpec(t);
    assert r == Trim(s);
    i := |s| - |t|;
    j := i + |r|;
    forall k | 0 <= k < |r| ensures r[k] == s[i + k] {
      assert r[k] == t[k];
    }
    assert r == s[i..j];
    forall k | j <= k < |s| ensures IsTrimmable(s[k]) {
      assert s[k] == t[k - i];
    }
  }

  /** Both directions: the trim is empty iff every char is trimmable. */
  lemma TrimEmpty(s: string)
    ensures Trim(s) == [] <==> forall i :: 0 <= i < |s| ==> IsTrimmable(s[i])
  {
    var t := TrimStart(s);
    TrimStartSpec(s);
    TrimEndSpec(t);
    assert Trim(s) == [] ==> t == [];
  }

  /** An already trimmed string is its own trim. */
  lemma TrimOfTrimmed(s: string)
    requires IsTrimmed(s)
    ensures Trim(s) == s
  {
    assert TrimStart(s) == s;
  }

  /** Trimming twice is trimming once. */
  lemma TrimIdempotent(s: string)
    ensures Trim(Trim(s)) == Trim(s)
  {
    TrimOfTrimmed(Trim(s));
  }

  /** `isEmpty(text)` of the identity screens: `text == null || text.trim().isEmpty()`. */
  predicate IsBlank(text: Option<string>) {
    text.None? || Trim(text.value) == []
  }

  // ---------------------------------------------------------------------------
  // Case mapping
  // ---------------------------------------------------------------------------

  predicate IsUpperAscii(c: char) {
    'A' <= c <= 'Z'
  }

  predicate IsLowerAscii(c: char) {
    'a' <= c <= 'z'
  }

  function LowerChar(c: char): char {
    if IsUpperAscii(c) then (c as int + 32) as char else c
  }

  function UpperChar(c: char): char {
    if IsLowerAscii(c) then (c as int - 32) as char else c
  }

  /** `s.toLowerCase()`: every char mapped, the length kept. */
  function Lower(s: string): (r: string)
    ensures |r| == |s|
    ensures forall i :: 0 <= i < |s| ==> r[i] == LowerChar(s[i])
  {
    if s == [] then [] else [LowerChar(s[0])] + Lower(s[1..])
  }

  /** A string that `toLowerCase()` leaves unchanged. */
  predicate IsLowerCase(s: string) {
    forall i :: 0 <= i < |s| ==> !IsUpperAscii(s[i])
  }

  lemma LowerOfLowerCase(s: string)
    requires IsLowerCase(s)
    ensures Lower(s) == s
  {
  }

  /** `a.equalsIgnoreCase(b)` for a non-null argument. */
  predicate EqualsIgnoreCase(a: string, b: string) {
    Lower(a) == Lower(b)
  }

  /** Both directions: equal ignoring case iff equally long and equal position by position after lower-casing. */
  lemma EqualsIgnoreCasePointwise(a: string, b: string)
    ensures EqualsIgnoreCase(a, b) <==>
      |a| == |b| && forall i :: 0 <= i < |a| ==> LowerChar(a[i]) == LowerChar(b[i])
  {
    if |a| == |b| && forall i :: 0 <= i < |a| ==> LowerChar(a[i]) == LowerChar(b[i]) {
      assert forall i :: 0 <= i < |a| ==> Lower(a)[i] == Lower(b)[i];
    }
  }

  /** `a.equalsIgnoreCase(b)` where `b` may be null: a null argument never matches. */
  predicate EqualsIgnoreCaseOrNull(a: string, b: Option<string>) {
    b.Some? && EqualsIgnoreCase(a, b.value)
  }

  /**
    `s.substring(0, 1).toUpperCase() + s.substring(1)`, the display form of a
    status. Java throws on the empty string, hence the precondition.
   */
  function Capitalize(s: string): (r: string)
    requires s != []
    ensures |r| == |s| && r[1..] == s[1..]
    ensures !IsLowerAscii(r[0])
    ensures IsLowerAscii(s[0]) ==> IsUpperAscii(r[0]) && LowerChar(r[0]) == s[0]
    ensures !IsLowerAscii(s[0]) ==> r == s
  {
    [UpperChar(s[0])] + s[1..]
  }

  /** Lower-casing a capitalised lower-case word gives the word back. */
  lemma LowerCapitalizeRoundTrip(s: string)
    requires s != [] && IsLowerCase(s)
    ensures Lower(Capitalize(s)) == s
  {
    var c := Capitalize(s);
    forall i | 0 <= i < |s| ensures Lower(c)[i] == s[i] {
      if i == 0 {
        assert c[0] == UpperChar(s[0]);
      } else {
        assert c[i] == s[i];
      }
    }
  }

  // ---------------------------------------------------------------------------
  // split(",")
  // ---------------------------------------------------------------------------

  /**
    `s.split(sep)` for a single-char separator, keeping every segment. Java also
    drops trailing empty segments; every caller here drops empty segments after
    trimming, so the two agree on what the callers keep.
   */
  function Split(s: string, sep: char): (parts: seq<string>)
    ensures |parts| >= 1
    ensures forall p :: p in parts ==> sep !in p
  {
    if s == [] then [[]]
    else
      var rest := Split(s[1..], sep);
      if s[0] == sep then [[]] + rest
      else [[s[0]] + rest[0]] + rest[1..]
  }

  /** `String.join(sep, parts)`: the inverse of `Split`. */
  function Join(parts: seq<string>, sep: char): string
    requires |parts| >= 1
  {
    if |parts| == 1 then parts[0] else parts[0] + [sep] + Join(parts[1..], sep)
  }

  /** Splitting and re-joining gives the input back: no char is lost. */
  lemma {:induction false} JoinSplit(s: string, sep: char)
    ensures Join(Split(s, sep), sep) == s
  {
    if s != [] {
      var rest := Split(s[1..], sep);
      JoinSplit(s[1..], sep);
      if s[0] == sep {
        assert Split(s, sep) == [[]] + rest;
        assert Join(Split(s, sep), sep) == [] + [sep] + Join(rest, sep);
      } else {
        var parts := Split(s, sep);
        assert parts[1..] == rest[1..];
        if |rest| == 1 {
          assert Join(parts, sep) == [s[0]] + rest[0];
        } else {
          assert Join(rest, sep) == rest[0] + [sep] + Join(rest[1..], sep);
          assert Join(parts, sep) == [s[0]] + rest[0] + [sep] + Join(rest[1..], sep);
        }
      }
    }
  }

  /** Splitting at a separator char splits the two sides independently. */
  lemma {:induction false} SplitConcat(a: string, b: string, sep: char)
    ensures Split(a + [sep] + b, sep) == Split(a, sep) + Split(b, sep)
  {
    if a == [] {
      assert [] + [sep] + b == [sep] + b;
      assert ([sep] + b)[1..] == b;
    } else {
      assert (a + [sep] + b)[1..] == a[1..] + [sep] + b;
      SplitConcat(a[1..], b, sep);
    }
  }

  /** A string without the separator is a single segment. */
  lemma {:induction false} SplitNoSeparator(s: string, sep: char)
    requires sep !in s
    ensures Split(s, sep) == [s]
  {
    if s != [] {
      SplitNoSeparator(s[1..], sep);
      assert s[0] != sep;
      assert [s[0]] + s[1..] == s;
    }
  }
}

=== FILE: join_institution.dfy ===
/**
  The "join institution" screen: a name search over all institutions (first
  case-insensitive match wins), an offer of that institution's roles minus the
  manager role, and the join itself, which appends a non-manager membership to
  the user's `institutions` array.
 */
module JoinInstitutionActivity {
  import opened Wrappers
  import opened JavaString
  import opened Domain

  // ---------------------------------------------------------------------------
  // Search
  // ---------------------------------------------------------------------------

  /** The institution's stored name matches the query, ignoring case; a missing name never matches. */
  predicate NameMatches(inst: Institution, query: string) {
    inst.institutionName.Some? && EqualsIgnoreCase(inst.institutionName.value, query)
  }

  /** Index of the first institution, in scan order, whose name matches. */
  function FindByName(insts: seq<Institution>, query: string): (r: Option<nat>)
    ensures r.None? <==> forall i :: 0 <= i < |insts| ==> !NameMatches(insts[i], query)
    ensures r.Some? ==> r.value < |insts| && NameMatches(insts[r.value], query)
    ensures r.Some? ==> forall i :: 0 <= i < r.value ==> !NameMatches(insts[i], query)
  {
    if insts == [] then None
    else if NameMatches(insts[0], query) then Some(0)
    else
      match FindByName(insts[1..], query)
      case None => None
      case Some(k) => Some(k + 1)
  }

  /** The roles offered as radio buttons: every role except those equal, ignoring case, to the manager role. */
  function JoinableRoles(roles: seq<string>, managerRoleName: Option<string>): (r: seq<string>)
    ensures |r| <= |roles|
  {
    if roles == [] then []
    else (if EqualsIgnoreCaseOrNull(roles[0], managerRoleName) then [] else [roles[0]])
         + JoinableRoles(roles[1..], managerRoleName)
  }

  /** Both directions: a role is offered iff the institution has it and it is not the manager role. */
  lemma {:induction false} JoinableMembership(roles: seq<string>, managerRoleName: Option<string>, x: string)
    ensures x in JoinableRoles(roles, managerRoleName) <==> x in roles && !EqualsIgnoreCaseOrNull(x, managerRoleName)
  {
    if roles != [] {
      JoinableMembership(roles[1..], managerRoleName, x);
      assert x in roles <==> x == roles[0] || x in roles[1..];
    }
  }

  /** Without a manager role nothing is held back. */
  lemma {:induction false} JoinableWithoutManagerRole(roles: seq<string>)
    ensures JoinableRoles(roles, None) == roles
  {
    if roles != [] {
      JoinableWithoutManagerRole(roles[1..]);
      assert roles == [roles[0]] + roles[1..];
    }
  }

  /** What `searchInstitution` leaves on screen. */
  datatype Search =
    | EmptyName
    | SearchFailed
    | NotFound
    | NoRoles
    | NoJoinableRoles
    | Offer(id: string, name: string, roles: seq<string>)

  /**
    The search. Only the first institution whose name matches is looked at:
    when it has no roles, or only the manager role, the search stops there even
    if a later institution with the same name has joinable roles.
   */
  function SearchInstitution(insts: seq<Institution>, nameInput: string, readOk: bool): (r: Search)
    ensures r == EmptyName <==> Trim(nameInput) == []
    ensures r == SearchFailed <==> Trim(nameInput) != [] && !readOk
    ensures r == NotFound <==>
      Trim(nameInput) != [] && readOk && forall i :: 0 <= i < |insts| ==> !NameMatches(insts[i], Trim(nameInput))
    ensures r.Offer? ==>
      exists k :: 0 <= k < |insts|
        && insts[k].id == r.id
        && insts[k].institutionName == Some(r.name)
        && EqualsIgnoreCase(r.name, Trim(nameInput))
        && r.roles == JoinableRoles(RolesOf(insts[k]), insts[k].managerRoleName)
    ensures r.Offer? ==> r.roles != []
    ensures r == NoRoles <==>
      && Trim(nameInput) != [] && readOk && FindByName(insts, Trim(nameInput)).Some?
      && RolesOf(insts[FindByName(insts, Trim(nameInput)).value]) == []
    ensures r == NoJoinableRoles <==>
      && Trim(nameInput) != [] && readOk && FindByName(insts, Trim(nameInput)).Some?
      && var inst := insts[FindByName(insts, Trim(nameInput)).value];
      && RolesOf(inst) != []
      && JoinableRoles(RolesOf(inst), inst.managerRoleName) == []
    ensures r.Offer? <==>
      && Trim(nameInput) != [] && readOk && FindByName(insts, Trim(nameInput)).Some?
      && var inst := insts[FindByName(insts, Trim(nameInput)).value];
      JoinableRoles(RolesOf(inst), inst.managerRoleName) != []
    ensures r.Offer? ==>
      var inst := insts[FindByName(insts, Trim(nameInput)).value];
      && r.id == inst.id
      && inst.institutionName == Some(r.name)
      && r.roles == JoinableRoles(RolesOf(inst), inst.managerRoleName)
  {
    var query := Trim(nameInput);
    if query == [] then EmptyName
    else if !readOk then SearchFailed
    else
      match FindByName(insts, query)
      case None => NotFound
      case Some(k) =>
        var inst := insts[k];
        if inst.roles.None? || inst.roles.value == [] then NoRoles
        else
          var joinable := JoinableRoles(inst.roles.value, inst.managerRoleName);
          if joinable == [] then NoJoinableRoles
          else Offer(inst.id, inst.institutionName.value, joinable)
  }

  /** Every offered role is a role of the offered institution and not its manager role. */
  lemma OfferedRolesAreMemberRoles(insts: seq<Institution>, nameInput: string, readOk: bool, role: string)
    requires SearchInstitution(insts, nameInput, readOk).Offer?
    requires role in SearchInstitution(insts, nameInput, readOk).roles
    ensures var k := FindByName(insts, Trim(nameInput)).value;
      && insts[k].id == SearchInstitution(insts, nameInput, readOk).id
      && role in RolesOf(insts[k])
      && !EqualsIgnoreCaseOrNull(role, insts[k].managerRoleName)
  {
    var k := FindByName(insts, Trim(nameInput)).value;
    JoinableMembership(RolesOf(insts[k]), insts[k].managerRoleName, role);
  }

  // ---------------------------------------------------------------------------
  // Join
  // ---------------------------------------------------------------------------

  /**
    `joinInstitution`'s patch of the user: one member (non-manager) entry is
    appended and the legacy `userRole` and `institutionId` mirrors are
    overwritten; nothing else changes.
   */
  function WithMemberMembership(u: User, institutionId: string, role: string): (u': User)
    ensures MembershipsOf(u') == MembershipsOf(u) + [Membership(Some(institutionId), Some(role), Some(false))]
    ensures u'.userRole == Some(role) && u'.institutionId == Some(institutionId)
    ensures u'.(memberships := u.memberships, userRole := u.userRole, institutionId := u.institutionId) == u
  {
    u.(memberships := Some(MembershipsOf(u) + [Membership(Some(institutionId), Some(role), Some(false))]),
       userRole := Some(role),
       institutionId := Some(institutionId))
  }

  /**
    The join action of user `uid` on an offer. `selection` is the index of the
    checked radio button, if any; `readOk` is the success of the user read,
    `writeOk` that of the update. A missing user document makes the update fail.
   */
  function Join(s: Store, uid: string, offer: Search, selection: Option<nat>, readOk: bool, writeOk: bool): (o: Outcome)
    requires offer.Offer?
    requires selection.Some? ==> selection.value < |offer.roles|
    ensures !o.PartialWrite?
    ensures selection.None? ==> o == Rejected(NoRoleSelected)
    ensures o == Rejected(AlreadyJoined) <==>
      selection.Some? && readOk && uid in s.users && HasMembershipIn(MembershipsOf(s.users[uid]), offer.id)
    ensures o.Ok? <==>
      selection.Some? && readOk && writeOk && uid in s.users && !HasMembershipIn(MembershipsOf(s.users[uid]), offer.id)
    ensures o == Rejected(StoreFailure) <==>
      && selection.Some?
      && (|| !readOk
          || (&& !(uid in s.users && HasMembershipIn(MembershipsOf(s.users[uid]), offer.id))
              && (uid !in s.users || !writeOk)))
    ensures o.Ok? ==>
      && o.store == s.(users := s.users[uid := WithMemberMembership(s.users[uid], offer.id, offer.roles[selection.value])])
  {
    if selection.None? then Rejected(NoRoleSelected)
    else if !readOk then Rejected(StoreFailure)
    else
      var role := offer.roles[selection.value];
      if uid in s.users && HasMembershipIn(MembershipsOf(s.users[uid]), offer.id) then Rejected(AlreadyJoined)
      else if uid !in s.users || !writeOk then Rejected(StoreFailure)
      else Ok(s.(users := s.users[uid := WithMemberMembership(s.users[uid], offer.id, role)]))
  }

  /** Joining the same institution again is refused, whatever role is picked the second time. */
  lemma JoinTwiceRejected(s: Store, uid: string, offer: Search, selection: Option<nat>, writeOk: bool,
                          again: nat, writeOk2: bool)
    requires offer.Offer?
    requires selection.Some? && selection.value < |offer.roles| && again < |offer.roles|
    requires Join(s, uid, offer, selection, true, writeOk).Ok?
    ensures var s' := Join(s, uid, offer, selection, true, writeOk).store;
      Join(s', uid, offer, Some(again), true, writeOk2) == Rejected(AlreadyJoined)
  {
    var s' := Join(s, uid, offer, selection, true, writeOk).store;
    var ms' := MembershipsOf(s'.users[uid]);
    assert ms'[|ms'| - 1].institutionId == Some(offer.id);
  }

  /**
    A join that follows a search keeps the store consistent: the new membership
    names an existing institution, and no institution is joined twice.
   */
  lemma JoinPreservesConsistency(s: Store, uid: string, nameInput: string, selection: Option<nat>, writeOk: bool)
    requires Consistent(s)
    requires SearchInstitution(s.institutions, nameInput, true).Offer?
    requires selection.Some? ==> selection.value < |SearchInstitution(s.institutions, nameInput, true).roles|
    requires Join(s, uid, SearchInstitution(s.institutions, nameInput, true), selection, true, writeOk).Ok?
    ensures Consistent(Join(s, uid, SearchInstitution(s.institutions, nameInput, true), selection, true, writeOk).store)
  {
    var offer := SearchInstitution(s.institutions, nameInput, true);
    var s' := Join(s, uid, offer, selection, true, writeOk).store;
    var ms := MembershipsOf(s.users[uid]);
    var ms' := MembershipsOf(s'.users[uid]);
    assert HasInstitution(s.institutions, offer.id);
    assert UniqueMemberships(ms') by {
      forall i, j | 0 <= i < j < |ms'| && ms'[i].institutionId.Some?
        ensures ms'[i].institutionId != ms'[j].institutionId
      {
        if j == |ms| {
          assert ms'[i] == ms[i];
        }
      }
    }
  }

  /**
    The membership a join adds is a member one: its role is a role of the
    institution, is not the manager role up to case, and `isManager` is false.
   */
  lemma JoinedAsMember(s: Store, uid: string, nameInput: string, selection: Option<nat>, writeOk: bool)
    requires SearchInstitution(s.institutions, nameInput, true).Offer?
    requires selection.Some? ==> selection.value < |SearchInstitution(s.institutions, nameInput, true).roles|
    requires Join(s, uid, SearchInstitution(s.institutions, nameInput, true), selection, true, writeOk).Ok?
    ensures var offer := SearchInstitution(s.institutions, nameInput, true);
      var ms' := MembershipsOf(Join(s, uid, offer, selection, true, writeOk).store.users[uid]);
      var k := FindByName(s.institutions, Trim(nameInput)).value;
      && ms' != []
      && ms'[|ms'| - 1].institutionId == Some(s.institutions[k].id)
      && ms'[|ms'| - 1].isManager == Some(false)
      && ms'[|ms'| - 1].role.Some?
      && ms'[|ms'| - 1].role.value in RolesOf(s.institutions[k])
      && !EqualsIgnoreCaseOrNull(ms'[|ms'| - 1].role.value, s.institutions[k].managerRoleName)
  {
    var offer := SearchInstitution(s.institutions, nameInput, true);
    var role := offer.roles[selection.value];
    OfferedRolesAreMemberRoles(s.institutions, nameInput, true, role);
  }
}

=== FILE: login.dfy ===
/**
  The login screen: three input checks, sign-in, and the routing decision
  taken from the user document's `userType`.
 */
module LoginActivity {
  import opened Wrappers
  import opened JavaString
  import opened Domain
  import opened RegisterActivity

  /**
    `validateInputs` on the trimmed fields: e-mail present, e-mail valid,
    password present. There is no length check here.
   */
  function ValidateLogin(email: string, password: string, validEmail: string -> bool): (r: Option<InputError>)
    ensures r.None? <==> !IsEmptyText(email) && validEmail(email) && !IsEmptyText(password)
    ensures r.Some? ==> r.value in {EmailMissing, EmailInvalid, PasswordMissing}
    ensures r == Some(EmailMissing) <==> IsEmptyText(email)
    ensures r == Some(EmailInvalid) <==> !IsEmptyText(email) && !validEmail(email)
    ensures r == Some(PasswordMissing) <==> !IsEmptyText(email) && validEmail(email) && IsEmptyText(password)
  {
    if IsEmptyText(email) then Some(EmailMissing)
    else if !validEmail(email) then Some(EmailInvalid)
    else if IsEmptyText(password) then Some(PasswordMissing)
    else None
  }

  /** Where a login attempt ends. */
  datatype Login =
    | LoginInvalid(error: InputError)
    | SignInFailed
    | FetchFailed
    | SignedOut          // authenticated, but no user document: signed out again
    | InvalidUserData    // the document has no `userType`: no navigation
    | ManagerDashboard
    | UserDashboard

  /** The routing decision of `fetchUserDataAndRoute` for a fetched document. */
  function Route(doc: Option<User>): (l: Login)
    ensures l == SignedOut <==> doc.None?
    ensures l == InvalidUserData <==> doc.Some? && doc.value.userType.None?
    ensures l == ManagerDashboard <==> doc.Some? && doc.value.userType == Some(ManagerType)
    ensures l in {SignedOut, InvalidUserData, ManagerDashboard, UserDashboard}
  {
    match doc
    case None => SignedOut
    case Some(u) =>
      match u.userType
      case None => InvalidUserData
      // Compared exactly: "Manager" goes to the user dashboard.
      case Some(t) => if t == ManagerType then ManagerDashboard else UserDashboard
  }

  /**
    `handleLogin` on the raw field contents. `authUid` is the signed-in id, or
    none when sign-in failed; `readOk` is the success of the document read.
   */
  function LoginStep(s: Store, emailInput: string, passwordInput: string, validEmail: string -> bool,
                     authUid: Option<string>, readOk: bool): (l: Login)
    ensures l.LoginInvalid? <==> ValidateLogin(Trim(emailInput), Trim(passwordInput), validEmail).Some?
    ensures l.LoginInvalid? ==> Some(l.error) == ValidateLogin(Trim(emailInput), Trim(passwordInput), validEmail)
    ensures !l.LoginInvalid? && l != SignInFailed && l != FetchFailed ==>
      authUid.Some? && readOk && l == Route(if authUid.value in s.users then Some(s.users[authUid.value]) else None)
    ensures l == SignInFailed <==> !l.LoginInvalid? && authUid.None?
    ensures l == FetchFailed <==> !l.LoginInvalid? && authUid.Some? && !readOk
  {
    match ValidateLogin(Trim(emailInput), Trim(passwordInput), validEmail)
    case Some(e) => LoginInvalid(e)
    case None =>
      if authUid.None? then SignInFailed
      else if !readOk then FetchFailed
      else Route(if authUid.value in s.users then Some(s.users[authUid.value]) else None)
  }

  /** Inputs that pass registration pass login too. */
  lemma RegistrationInputsPassLogin(fullNameInput: string, emailInput: string, passwordInput: string,
                                    confirmInput: string, validEmail: string -> bool)
    requires ValidateRegistration(Trim(fullNameInput), Trim(emailInput), Trim(passwordInput), Trim(confirmInput), validEmail).None?
    ensures ValidateLogin(Trim(emailInput), Trim(passwordInput), validEmail).None?
  {
  }

  /** The converse fails: login accepts a non-blank password shorter than registration allows. */
  lemma LoginAcceptsShortPassword(fullName: string, email: string, password: string, validEmail: string -> bool)
    requires !IsEmptyText(fullName) && !IsEmptyText(email) && validEmail(email)
    requires !IsEmptyText(password) && |password| < MinPasswordLength
    ensures ValidateLogin(email, password, validEmail).None?
    ensures ValidateRegistration(fullName, email, password, password, validEmail) == Some(PasswordTooShort)
  {
  }

  /**
    A newly registered account routes by the radio choice made at
    registration: the manager dashboard iff "manager" was checked.
   */
  lemma RegisteredUserRoutes(s: Store, fullNameInput: string, emailInput: string, passwordInput: string,
                             confirmInput: string, managerChecked: bool, validEmail: string -> bool, uid: string)
    requires Register(s, fullNameInput, emailInput, passwordInput, confirmInput, managerChecked, validEmail, Some(uid), true).Registered?
    ensures var s' := Register(s, fullNameInput, emailInput, passwordInput, confirmInput, managerChecked, validEmail, Some(uid), true).store;
      && LoginStep(s', emailInput, passwordInput, validEmail, Some(uid), true) == (if managerChecked then ManagerDashboard else UserDashboard)
  {
    RegistrationInputsPassLogin(fullNameInput, emailInput, passwordInput, confirmInput, validEmail);
  }
}

=== FILE: manage_report.dfy ===
/**
  The manager's "manage report" screen: the stored status preselects one of
  four spinner options, the stored response fills the text box, and "update"
  patches the status (lower-cased option), the trimmed response and the
  update time, and nothing else.
 */
module ManageReportActivity {
  import opened Wrappers
  import opened JavaString
  import opened Domain
  import opened SubmitReportActivity

  /** The spinner's options, in display order. */
  const StatusOptions: seq<string> := ["Pending", "Investigating", "Verified", "Rejected"]

  /** The statuses an update can write: the options lower-cased. */
  const StatusValues: seq<string> := ["pending", "investigating", "verified", "rejected"]

  /** Each option is its status value with the first letter upper-cased. */
  lemma OptionsAreCapitalizedValues(i: nat)
    requires i < |StatusValues|
    ensures StatusValues[i] != [] && IsLowerCase(StatusValues[i])
    ensures StatusOptions[i] == Capitalize(StatusValues[i])
  {
    var v, o := StatusValues[i], StatusOptions[i];
    assert |o| == |v| && o[1..] == v[1..] && o[0] == UpperChar(v[0]) by {
      if i == 0 {
        assert v == "pending" && o == "Pending";
      } else if i == 1 {
        assert v == "investigating" && o == "Investigating";
      } else if i == 2 {
        assert v == "verified" && o == "Verified";
      } else {
        assert v == "rejected" && o == "Rejected";
      }
    }
    assert o == [o[0]] + o[1..];
    assert forall j :: 0 <= j < |v| ==> 'a' <= v[j] <= 'z';
  }

  /** The four status values are pairwise different. */
  lemma StatusValuesDistinct(i: nat, j: nat)
    requires i < |StatusValues| && j < |StatusValues|
    ensures StatusValues[i] == StatusValues[j] <==> i == j
  {
    if i != j {
      assert StatusValues[i][0] != StatusValues[j][0];
    }
  }

  /** Lower-casing an option gives the status value it stands for. */
  lemma StatusValuesAreLoweredOptions()
    ensures |StatusValues| == |StatusOptions|
    ensures forall i :: 0 <= i < |StatusOptions| ==> Lower(StatusOptions[i]) == StatusValues[i]
  {
    forall i | 0 <= i < |StatusOptions| ensures Lower(StatusOptions[i]) == StatusValues[i] {
      OptionsAreCapitalizedValues(i);
      LowerCapitalizeRoundTrip(StatusValues[i]);
    }
  }

  /** `ArrayAdapter.getPosition`: the index of the first equal option, or none (Java's -1). */
  function Position(options: seq<string>, x: string): (r: Option<nat>)
    ensures r.None? <==> x !in options
    ensures r.Some? ==> r.value < |options| && options[r.value] == x
    ensures r.Some? ==> forall i :: 0 <= i < r.value ==> options[i] != x
  {
    if options == [] then None
    else if options[0] == x then Some(0)
    else
      match Position(options[1..], x)
      case None => None
      case Some(k) => Some(k + 1)
  }

  /** The editable part of the screen: the spinner index and the response text. */
  datatype Form = Form(selection: nat, response: string)

  /** What opening the screen leads to. */
  datatype Load =
    | MissingId
    | LoadFailed
    | NotFound
    | EmptyStatus
    | Loaded(index: nat, form: Form)

  /**
    The spinner position `loadReportData` sets: the capitalised status's
    position when it is an option, otherwise the first option, where the
    spinner starts. An empty status string makes the capitalisation throw.
   */
  function InitialSelection(status: Option<string>): (r: Option<nat>)
    ensures r.None? <==> status == Some([])
    ensures r.Some? ==> r.value < |StatusOptions|
    ensures r.Some? && status.Some? && Capitalize(status.value) in StatusOptions ==>
      StatusOptions[r.value] == Capitalize(status.value)
    ensures r.Some? && (status.None? || Capitalize(status.value) !in StatusOptions) ==> r.value == 0
  {
    if status.None? then Some(0)
    else if status.value == [] then None
    else
      match Position(StatusOptions, Capitalize(status.value))
      case None => Some(0)
      case Some(k) => Some(k)
  }

  /** Opening the screen for `reportId`; `readOk` is the success of the read. */
  function LoadReport(s: Store, reportId: Option<string>, readOk: bool): (l: Load)
    ensures reportId.None? <==> l == MissingId
    ensures l == LoadFailed <==> reportId.Some? && !readOk
    ensures l == NotFound <==> reportId.Some? && readOk && FindReport(s.reports, reportId.value).None?
    ensures l == EmptyStatus <==>
      && reportId.Some? && readOk && FindReport(s.reports, reportId.value).Some?
      && s.reports[FindReport(s.reports, reportId.value).value].status == Some([])
    ensures l.Loaded? ==>
      && Some(l.index) == FindReport(s.reports, reportId.value)
      && l.index < |s.reports|
      && s.reports[l.index].id == reportId.value
      && l.form.selection < |StatusOptions|
      && Some(l.form.selection) == InitialSelection(s.reports[l.index].status)
      && l.form.response == s.reports[l.index].managerResponse.GetOr([])
  {
    if reportId.None? then MissingId
    else if !readOk then LoadFailed
    else
      match FindReport(s.reports, reportId.value)
      case None => NotFound
      case Some(k) =>
        var r := s.reports[k];
        match InitialSelection(r.status)
        case None => EmptyStatus
        // The box keeps its initial empty text when the response is missing or empty.
        case Some(sel) => Loaded(k, Form(sel, r.managerResponse.GetOr([])))
  }

  /**
    `updateReport` on report `reportId`. `now` is the clock reading and
    `writeOk` the success of the update, which also fails when the document
    no longer exists.
   */
  function UpdateReport(s: Store, reportId: string, form: Form, now: int, writeOk: bool): (o: Outcome)
    requires form.selection < |StatusOptions|
    ensures !o.PartialWrite?
    ensures o.Ok? <==> writeOk && FindReport(s.reports, reportId).Some?
    ensures !writeOk ==> o == Rejected(StoreFailure)
    ensures writeOk && FindReport(s.reports, reportId).None? ==> o == Rejected(ReportNotFound)
    ensures o.Ok? ==>
      var k := FindReport(s.reports, reportId).value;
      && |o.store.reports| == |s.reports|
      && o.store.reports[k].status == Some(StatusValues[form.selection])
      && o.store.reports[k].managerResponse == Some(Trim(form.response))
      && o.store.reports[k].updatedAt == Some(now)
      // Nothing else changes: other reports, users and institutions, and the
      // report's id, author, institution, title, description and creation time.
      && (forall i :: 0 <= i < |s.reports| && i != k ==> o.store.reports[i] == s.reports[i])
      && o.store.reports[k].(status := s.reports[k].status,
                             managerResponse := s.reports[k].managerResponse,
                             updatedAt := s.reports[k].updatedAt) == s.reports[k]
      && o.store.users == s.users && o.store.institutions == s.institutions
  {
    StatusValuesAreLoweredOptions();
    if !writeOk then Rejected(StoreFailure)
    else
      match FindReport(s.reports, reportId)
      case None => Rejected(ReportNotFound)
      case Some(k) =>
        var r := s.reports[k];
        var patched := r.(status := Some(Lower(StatusOptions[form.selection])),
                          managerResponse := Some(Trim(form.response)),
                          updatedAt := Some(now));
        Ok(s.(reports := s.reports[k := patched]))
  }

  /** Every status an update writes is one of the four lower-case values. */
  lemma UpdatedStatusIsAValue(s: Store, reportId: string, form: Form, now: int)
    requires form.selection < |StatusOptions|
    requires UpdateReport(s, reportId, form, now, true).Ok?
    ensures var s' := UpdateReport(s, reportId, form, now, true).store;
      var k := FindReport(s.reports, reportId).value;
      && s'.reports[k].status.Some?
      && s'.reports[k].status.value in StatusValues
      && IsLowerCase(s'.reports[k].status.value)
  {
    OptionsAreCapitalizedValues(form.selection);
  }

  /** A stored status value preselects the option it came from. */
  lemma InitialSelectionOfValue(i: nat)
    requires i < |StatusValues|
    ensures InitialSelection(Some(StatusValues[i])) == Some(i)
  {
    OptionsAreCapitalizedValues(i);
    assert forall j :: 0 <= j < i ==> StatusOptions[j] != StatusOptions[i];
  }

  /**
    Round trip: opening a report whose status is one of the four values and
    whose response is already trimmed, then pressing "update" without touching
    the form, changes only the update time.
   */
  lemma SaveUntouchedForm(s: Store, reportId: string, now: int)
    requires LoadReport(s, Some(reportId), true).Loaded?
    requires var r := s.reports[LoadReport(s, Some(reportId), true).index];
      && r.status.Some? && r.status.value in StatusValues
      && r.managerResponse.Some? && Trim(r.managerResponse.value) == r.managerResponse.value
    ensures var l := LoadReport(s, Some(reportId), true);
      var o := UpdateReport(s, reportId, l.form, now, true);
      && o.Ok?
      && o.store.reports == s.reports[l.index := s.reports[l.index].(updatedAt := Some(now))]
  {
    var l := LoadReport(s, Some(reportId), true);
    var r := s.reports[l.index];
    var i :| 0 <= i < |StatusValues| && StatusValues[i] == r.status.value;
    InitialSelectionOfValue(i);
    StatusValuesAreLoweredOptions();
  }

  /** A freshly submitted report opens with the first option and an empty response. */
  lemma SubmittedReportLoads(s: Store, uid: string, titleInput: string, descriptionInput: string,
                             institutionId: Option<string>, institutionName: Option<string>, userRole: Option<string>,
                             newId: string, now: int)
    requires FindReport(s.reports, newId).None?
    requires SubmitReport(s, uid, titleInput, descriptionInput, institutionId, institutionName, userRole, newId, now, true).Ok?
    ensures var s' := SubmitReport(s, uid, titleInput, descriptionInput, institutionId, institutionName, userRole, newId, now, true).store;
      LoadReport(s', Some(newId), true) == Loaded(|s.reports|, Form(0, []))
  {
    SubmittedReportIsFound(s, uid, titleInput, descriptionInput, institutionId, institutionName, userRole, newId, now);
    InitialSelectionOfValue(0);
  }
}

=== FILE: manager_dashboard.dfy ===
/**
  The manager dashboard: the institutions whose `managerIds` contain the user,
  or, only when there are none, those whose legacy `managerId` is the user;
  one card per institution with its manager-role label and role count.
 */
module ManagerDashboardActivity {
  import opened Wrappers
  import opened Domain
  import CreateInstitutionActivity

  /** `whereArrayContains("managerIds", uid)`, in scan order. */
  function ManagedBy(insts: seq<Institution>, uid: string): (r: seq<Institution>)
    ensures |r| <= |insts|
  {
    if insts == [] then []
    else (if uid in insts[0].managerIds then [insts[0]] else []) + ManagedBy(insts[1..], uid)
  }

  /** `whereEqualTo("managerId", uid)`, in scan order. */
  function LegacyManagedBy(insts: seq<Institution>, uid: string): (r: seq<Institution>)
    ensures |r| <= |insts|
  {
    if insts == [] then []
    else (if insts[0].managerId == Some(uid) then [insts[0]] else []) + LegacyManagedBy(insts[1..], uid)
  }

  /** Both directions: an institution is found by the primary query iff it lists the user as a manager. */
  lemma {:induction false} ManagedByMembership(insts: seq<Institution>, uid: string, x: Institution)
    ensures x in ManagedBy(insts, uid) <==> x in insts && uid in x.managerIds
  {
    if insts != [] {
      ManagedByMembership(insts[1..], uid, x);
      assert x in insts <==> x == insts[0] || x in insts[1..];
    }
  }

  /** Both directions: an institution is found by the legacy query iff its `managerId` is the user. */
  lemma {:induction false} LegacyManagedByMembership(insts: seq<Institution>, uid: string, x: Institution)
    ensures x in LegacyManagedBy(insts, uid) <==> x in insts && x.managerId == Some(uid)
  {
    if insts != [] {
      LegacyManagedByMembership(insts[1..], uid, x);
      assert x in insts <==> x == insts[0] || x in insts[1..];
    }
  }

  const DefaultManagerRole: string := "Manager"
  const RoleLabelPrefix: string := "Your Role: "

  /** What one institution card shows. */
  datatype Card = Card(institutionId: string, name: Option<string>, roleLabel: string, roleCount: nat)

  /** The card `displayInstitutions` builds for one institution. */
  function CardFor(inst: Institution): (c: Card)
    ensures c.institutionId == inst.id && c.name == inst.institutionName
    ensures c.roleCount == |RolesOf(inst)|
    ensures inst.roles.None? ==> c.roleCount == 0
    ensures inst.managerRoleName.None? ==> c.roleLabel == RoleLabelPrefix + DefaultManagerRole
    ensures inst.managerRoleName.Some? ==> c.roleLabel == RoleLabelPrefix + inst.managerRoleName.value
  {
    Card(inst.id, inst.institutionName,
         RoleLabelPrefix + inst.managerRoleName.GetOr(DefaultManagerRole),
         if inst.roles.Some? then |inst.roles.value| else 0)
  }

  function CardsFor(insts: seq<Institution>): (cs: seq<Card>)
    ensures |cs| == |insts|
    ensures forall i :: 0 <= i < |insts| ==> cs[i] == CardFor(insts[i])
  {
    if insts == [] then [] else [CardFor(insts[0])] + CardsFor(insts[1..])
  }

  /** What the dashboard shows. */
  datatype View =
    | LoadFailed
    | NoInstitutions
    | Cards(cards: seq<Card>)

  /**
    `loadInstitutions` for user `uid`. `readOk` is the success of the primary
    query and `legacyReadOk` that of the legacy one, which runs only when the
    primary query finds nothing.
   */
  function ManagerDashboard(s: Store, uid: string, readOk: bool, legacyReadOk: bool): (v: View)
    ensures ManagedBy(s.institutions, uid) != [] && readOk ==> v == Cards(CardsFor(ManagedBy(s.institutions, uid)))
    ensures v.Cards? && ManagedBy(s.institutions, uid) == [] ==>
      v.cards == CardsFor(LegacyManagedBy(s.institutions, uid))
    ensures v == NoInstitutions <==>
      readOk && legacyReadOk && ManagedBy(s.institutions, uid) == [] && LegacyManagedBy(s.institutions, uid) == []
    ensures v.Cards? ==> v.cards != []
    ensures v == LoadFailed <==> !readOk || (ManagedBy(s.institutions, uid) == [] && !legacyReadOk)
  {
    if !readOk then LoadFailed
    else
      var primary := ManagedBy(s.institutions, uid);
      if primary != [] then Cards(CardsFor(primary))
      else if !legacyReadOk then LoadFailed
      else
        var legacy := LegacyManagedBy(s.institutions, uid);
        if legacy == [] then NoInstitutions else Cards(CardsFor(legacy))
  }

  /** The card is that of an institution of the store that the user manages by either field. */
  predicate IsManagedCard(s: Store, uid: string, c: Card) {
    exists i :: 0 <= i < |s.institutions| && c == CardFor(s.institutions[i]) && (uid in s.institutions[i].managerIds || s.institutions[i].managerId == Some(uid))
  }

  /** Every institution the user manages by either field gets a card, and only those do. */
  lemma DashboardShowsManagedInstitutions(s: Store, uid: string, x: Institution)
    requires ManagerDashboard(s, uid, true, true).Cards?
    ensures x in s.institutions && (uid in x.managerIds || (x.managerId == Some(uid) && ManagedBy(s.institutions, uid) == [])) ==>
      CardFor(x) in ManagerDashboard(s, uid, true, true).cards
    ensures forall c :: c in ManagerDashboard(s, uid, true, true).cards ==> IsManagedCard(s, uid, c)
  {
    var primary := ManagedBy(s.institutions, uid);
    var legacy := LegacyManagedBy(s.institutions, uid);
    ManagedByMembership(s.institutions, uid, x);
    LegacyManagedByMembership(s.institutions, uid, x);
    var shown := if primary != [] then primary else legacy;
    forall c | c in ManagerDashboard(s, uid, true, true).cards ensures IsManagedCard(s, uid, c) {
      var j :| 0 <= j < |shown| && c == CardsFor(shown)[j];
      var y := shown[j];
      assert y in shown;
      ManagedByMembership(s.institutions, uid, y);
      LegacyManagedByMembership(s.institutions, uid, y);
      var i :| 0 <= i < |s.institutions| && s.institutions[i] == y;
    }
    if x in s.institutions && (uid in x.managerIds || (x.managerId == Some(uid) && primary == [])) {
      var j :| 0 <= j < |shown| && shown[j] == x;
      assert CardsFor(shown)[j] == CardFor(x);
    }
  }

  /** An institution, once inserted, is on its creator's dashboard, whether or not the profile update landed. */
  lemma CreatedInstitutionIsListed(s: Store, creator: string, nameInput: string, rolesInput: string,
                                   newId: string, now: int, insertOk: bool, profileOk: bool)
    requires !HasInstitution(s.institutions, newId)
    requires !CreateInstitutionActivity.CreateInstitution(s, creator, nameInput, rolesInput, newId, now, insertOk, profileOk).Rejected?
    ensures var s' := CreateInstitutionActivity.CreateInstitution(s, creator, nameInput, rolesInput, newId, now, insertOk, profileOk).store;
      var v := ManagerDashboard(s', creator, true, true);
      && v.Cards?
      && CardFor(s'.institutions[|s.institutions|]) in v.cards
  {
    var s' := CreateInstitutionActivity.CreateInstitution(s, creator, nameInput, rolesInput, newId, now, insertOk, profileOk).store;
    var inst := s'.institutions[|s.institutions|];
    assert inst in s'.institutions;
    ManagedByMembership(s'.institutions, creator, inst);
    var primary := ManagedBy(s'.institutions, creator);
    var j :| 0 <= j < |primary| && primary[j] == inst;
    assert CardsFor(primary)[j] == CardFor(inst);
  }
}

=== FILE: register.dfy ===
/**
  The registration screen: seven input checks in a fixed order, the
  credential creation, and the `users` document written afterwards, whose
  `userType` records whether the manager option was checked.
 */
module RegisterActivity {
  import opened Wrappers
  import opened JavaString
  import opened Domain

  /** The minimum password length, counted after trimming. */
  const MinPasswordLength: nat := 6

  const ManagerType: string := "manager"
  const UserType: string := "user"

  /** The first failing input check of the identity screens. */
  datatype InputError =
    | FullNameMissing
    | EmailMissing
    | EmailInvalid
    | PasswordMissing
    | PasswordTooShort
    | ConfirmationMissing
    | PasswordsDiffer

  /** `isEmpty` on a text field's (non-null) content. */
  predicate IsEmptyText(text: string) {
    IsBlank(Some(text))
  }

  /**
    `validateInputs` on the trimmed fields; the first failing check wins.
    `validEmail` stands for the platform's e-mail address pattern.
   */
  function ValidateRegistration(fullName: string, email: string, password: string, confirmPassword: string,
                                validEmail: string -> bool): (r: Option<InputError>)
    ensures r.None? <==>
      && !IsEmptyText(fullName) && !IsEmptyText(email) && validEmail(email)
      && !IsEmptyText(password) && |password| >= MinPasswordLength
      && !IsEmptyText(confirmPassword) && password == confirmPassword
    ensures r == Some(FullNameMissing) <==> IsEmptyText(fullName)
    ensures r == Some(EmailMissing) <==> !IsEmptyText(fullName) && IsEmptyText(email)
    ensures r == Some(EmailInvalid) <==> !IsEmptyText(fullName) && !IsEmptyText(email) && !validEmail(email)
    ensures r == Some(PasswordMissing) <==>
      && !IsEmptyText(fullName) && !IsEmptyText(email) && validEmail(email)
      && IsEmptyText(password)
    ensures r == Some(PasswordTooShort) <==>
      && !IsEmptyText(fullName) && !IsEmptyText(email) && validEmail(email)
      && !IsEmptyText(password) && |password| < MinPasswordLength
    ensures r == Some(ConfirmationMissing) <==>
      && !IsEmptyText(fullName) && !IsEmptyText(email) && validEmail(email)
      && !IsEmptyText(password) && |password| >= MinPasswordLength
      && IsEmptyText(confirmPassword)
    ensures r == Some(PasswordsDiffer) <==>
      && !IsEmptyText(fullName) && !IsEmptyText(email) && validEmail(email)
      && !IsEmptyText(password) && |password| >= MinPasswordLength
      && !IsEmptyText(confirmPassword) && password != confirmPassword
  {
    if IsEmptyText(fullName) then Some(FullNameMissing)
    else if IsEmptyText(email) then Some(EmailMissing)
    else if !validEmail(email) then Some(EmailInvalid)
    else if IsEmptyText(password) then Some(PasswordMissing)
    else if |password| < MinPasswordLength then Some(PasswordTooShort)
    else if IsEmptyText(confirmPassword) then Some(ConfirmationMissing)
    else if password != confirmPassword then Some(PasswordsDiffer)
    else None
  }

  /** The `userType` written for the radio choice. */
  function UserTypeFor(managerChecked: bool): (t: string)
    ensures t == ManagerType <==> managerChecked
    ensures t == ManagerType || t == UserType
  {
    if managerChecked then ManagerType else UserType
  }

  /**
    The document `saveUserToFirestore` sets: no institutions yet and the
    legacy single-institution fields empty.
   */
  function NewUserDocument(uid: string, email: string, fullName: string, userType: string): (u: User)
    ensures u.userId == uid && u.email == email && u.fullName == fullName && u.userType == Some(userType)
    ensures MembershipsOf(u) == [] && u.memberships.Some?
    ensures u.roleName.None? && u.institutionId.None? && u.userRole.None?
  {
    User(uid, email, fullName, Some(userType), Some([]), None, None, None)
  }

  /** How a registration attempt ends. */
  datatype Registration =
    | Invalid(error: InputError)
    | AuthFailed
    | Orphaned           // the credential exists, its user document was not written
    | Registered(store: Store)

  /**
    `handleRegistration` on the raw field contents. `authUid` is the id of the
    created credential, or none when creation failed; `writeOk` is the success
    of the user document write.
   */
  function Register(s: Store, fullNameInput: string, emailInput: string, passwordInput: string,
                    confirmInput: string, managerChecked: bool, validEmail: string -> bool,
                    authUid: Option<string>, writeOk: bool): (r: Registration)
    ensures r.Invalid? <==>
      ValidateRegistration(Trim(fullNameInput), Trim(emailInput), Trim(passwordInput), Trim(confirmInput), validEmail).Some?
    ensures r.Invalid? ==>
      Some(r.error) == ValidateRegistration(Trim(fullNameInput), Trim(emailInput), Trim(passwordInput), Trim(confirmInput), validEmail)
    ensures r == AuthFailed <==> !r.Invalid? && authUid.None?
    ensures r == Orphaned <==> !r.Invalid? && authUid.Some? && !writeOk
    ensures r.Registered? <==> !r.Invalid? && authUid.Some? && writeOk
    ensures r.Registered? ==>
      && r.store.institutions == s.institutions && r.store.reports == s.reports
      && r.store.users == s.users[authUid.value := NewUserDocument(authUid.value, Trim(emailInput), Trim(fullNameInput),
                                                                   UserTypeFor(managerChecked))]
  {
    var fullName, email, password, confirm := Trim(fullNameInput), Trim(emailInput), Trim(passwordInput), Trim(confirmInput);
    match ValidateRegistration(fullName, email, password, confirm, validEmail)
    case Some(e) => Invalid(e)
    case None =>
      if authUid.None? then AuthFailed
      else if !writeOk then Orphaned
      else
        var u := NewUserDocument(authUid.value, email, fullName, UserTypeFor(managerChecked));
        Registered(s.(users := s.users[authUid.value := u]))
  }

  /** A freshly registered user starts out consistent: no membership to dangle or repeat. */
  lemma RegisterPreservesConsistency(s: Store, fullNameInput: string, emailInput: string, passwordInput: string,
                                     confirmInput: string, managerChecked: bool, validEmail: string -> bool,
                                     authUid: Option<string>)
    requires Consistent(s)
    requires Register(s, fullNameInput, emailInput, passwordInput, confirmInput, managerChecked, validEmail, authUid, true).Registered?
    ensures Consistent(Register(s, fullNameInput, emailInput, passwordInput, confirmInput, managerChecked, validEmail, authUid, true).store)
  {
    var s' := Register(s, fullNameInput, emailInput, passwordInput, confirmInput, managerChecked, validEmail, authUid, true).store;
    assert MembershipsOf(s'.users[authUid.value]) == [];
  }
}

=== FILE: report_order.dfy ===
/**
  The order both report lists are shown in: `List.sort` with a comparator on
  `createdAt`, newest first, a missing timestamp counting as 0. `List.sort` is
  stable, so reports with equal timestamps keep their query order.
 */
module ReportOrder {
  import opened Domain

  /** The comparator's key: `createdAt`, or 0 when absent. */
  function Key(r: Report): int {
    r.createdAt.GetOr(0)
  }

  /** Newest first: keys never increase along the list. */
  predicate SortedDesc(rs: seq<Report>) {
    forall i, j :: 0 <= i < j < |rs| ==> Key(rs[i]) >= Key(rs[j])
  }

  /** The reports with key `k`, in list order. */
  function WithKey(rs: seq<Report>, k: int): (r: seq<Report>)
    ensures |r| <= |rs|
  {
    if rs == [] then []
    else (if Key(rs[0]) == k then [rs[0]] else []) + WithKey(rs[1..], k)
  }

  /**
    Places `x` in front of the first report whose key is not greater than its
    own, so that `x` stays ahead of the equal-key reports that follow it.
   */
  function Insert(x: Report, rs: seq<Report>): (r: seq<Report>)
    ensures |r| == |rs| + 1
  {
    if rs == [] then [x]
    else if Key(rs[0]) <= Key(x) then [x] + rs
    else [rs[0]] + Insert(x, rs[1..])
  }

  /** The stable newest-first sort, as an insertion sort from the back of the list. */
  function SortByNewest(rs: seq<Report>): (r: seq<Report>)
    ensures |r| == |rs|
  {
    if rs == [] then [] else Insert(rs[0], SortByNewest(rs[1..]))
  }

  lemma {:induction false} InsertIsPermutation(x: Report, rs: seq<Report>)
    ensures multiset(Insert(x, rs)) == multiset(rs) + multiset{x}
  {
    if rs != [] && Key(rs[0]) > Key(x) {
      InsertIsPermutation(x, rs[1..]);
      assert rs == [rs[0]] + rs[1..];
    }
  }

  /** Nothing is lost or duplicated: the sorted list is a permutation of the input. */
  lemma {:induction false} SortIsPermutation(rs: seq<Report>)
    ensures multiset(SortByNewest(rs)) == multiset(rs)
  {
    if rs != [] {
      SortIsPermutation(rs[1..]);
      InsertIsPermutation(rs[0], SortByNewest(rs[1..]));
      assert rs == [rs[0]] + rs[1..];
    }
  }

  lemma {:induction false} InsertKeepsSorted(x: Report, rs: seq<Report>)
    requires SortedDesc(rs)
    ensures SortedDesc(Insert(x, rs))
  {
    if rs != [] && Key(rs[0]) > Key(x) {
      var tail := Insert(x, rs[1..]);
      InsertKeepsSorted(x, rs[1..]);
      InsertIsPermutation(x, rs[1..]);
      assert forall j :: 0 <= j < |tail| ==> Key(rs[0]) >= Key(tail[j]) by {
        forall j | 0 <= j < |tail| ensures Key(rs[0]) >= Key(tail[j]) {
          assert tail[j] in multiset(tail);
          assert tail[j] == x || tail[j] in rs[1..];
        }
      }
    }
  }

  /** The sorted list is newest first. */
  lemma {:induction false} SortIsSorted(rs: seq<Report>)
    ensures SortedDesc(SortByNewest(rs))
  {
    if rs != [] {
      SortIsSorted(rs[1..]);
      InsertKeepsSorted(rs[0], SortByNewest(rs[1..]));
    }
  }

  lemma {:induction false} InsertWithKey(x: Report, rs: seq<Report>, k: int)
    ensures WithKey(Insert(x, rs), k) == (if Key(x) == k then [x] else []) + WithKey(rs, k)
  {
    if rs == [] {
    } else if Key(rs[0]) <= Key(x) {
      assert ([x] + rs)[1..] == rs;
    } else {
      InsertWithKey(x, rs[1..], k);
      assert ([rs[0]] + Insert(x, rs[1..]))[1..] == Insert(x, rs[1..]);
    }
  }

  /**
    Stability: for every timestamp, the reports carrying it appear in the
    sorted list in the same relative order as in the input.
   */
  lemma {:induction false} SortIsStable(rs: seq<Report>, k: int)
    ensures WithKey(SortByNewest(rs), k) == WithKey(rs, k)
  {
    if rs != [] {
      SortIsStable(rs[1..], k);
      InsertWithKey(rs[0], SortByNewest(rs[1..]), k);
    }
  }
}

=== FILE: report_scope.dfy ===
/**
  The two report queries of the screens, as filters over the `reports`
  collection in scan order: `whereEqualTo("institutionId", id)` and the
  submitter's `whereEqualTo("userId", uid).whereEqualTo("institutionId", id)`.
 */
module ReportScope {
  import opened Wrappers
  import opened Domain

  /** The reports of one institution, in scan order. */
  function OfInstitution(rs: seq<Report>, institutionId: string): (r: seq<Report>)
    ensures |r| <= |rs|
  {
    if rs == [] then []
    else (if rs[0].institutionId == Some(institutionId) then [rs[0]] else [])
         + OfInstitution(rs[1..], institutionId)
  }

  /** The reports one user submitted to one institution, in scan order. */
  function OfUserAt(rs: seq<Report>, uid: string, institutionId: string): (r: seq<Report>)
    ensures |r| <= |rs|
  {
    if rs == [] then []
    else (if rs[0].userId == Some(uid) && rs[0].institutionId == Some(institutionId) then [rs[0]] else [])
         + OfUserAt(rs[1..], uid, institutionId)
  }

  /** Both directions: a report is in scope iff it is stored and tagged with the institution. */
  lemma {:induction false} OfInstitutionMembership(rs: seq<Report>, institutionId: string, x: Report)
    ensures x in OfInstitution(rs, institutionId) <==> x in rs && x.institutionId == Some(institutionId)
  {
    if rs != [] {
      OfInstitutionMembership(rs[1..], institutionId, x);
      assert x in rs <==> x == rs[0] || x in rs[1..];
    }
  }

  /** Both directions: a report is in the submitter's scope iff stored with both tags. */
  lemma {:induction false} OfUserAtMembership(rs: seq<Report>, uid: string, institutionId: string, x: Report)
    ensures x in OfUserAt(rs, uid, institutionId) <==>
      x in rs && x.userId == Some(uid) && x.institutionId == Some(institutionId)
  {
    if rs != [] {
      OfUserAtMembership(rs[1..], uid, institutionId, x);
      assert x in rs <==> x == rs[0] || x in rs[1..];
    }
  }
}

=== FILE: submit_report.dfy ===
/**
  The "submit report" screen: a title and a description, both trimmed, become
  a new `reports` document in state "pending" with an empty manager response,
  tagged with the submitter and the institution handed over by the caller.
 */
module SubmitReportActivity {
  import opened Wrappers
  import opened JavaString
  import opened Domain

  /** The status every new report starts in. */
  const InitialStatus: string := "pending"

  /** Why `validateInputs` refuses, if it does; the first failing check wins. */
  function ValidateReport(titleInput: string, descriptionInput: string, institutionId: Option<string>): (r: Option<Reason>)
    ensures r.None? <==> Trim(titleInput) != [] && Trim(descriptionInput) != [] && institutionId.Some? && institutionId.value != []
    ensures r == Some(TitleMissing) <==> Trim(titleInput) == []
    ensures r == Some(DescriptionMissing) <==> Trim(titleInput) != [] && Trim(descriptionInput) == []
    ensures r == Some(InstitutionIdMissing) <==>
      Trim(titleInput) != [] && Trim(descriptionInput) != [] && (institutionId.None? || institutionId.value == [])
  {
    if Trim(titleInput) == [] then Some(TitleMissing)
    else if Trim(descriptionInput) == [] then Some(DescriptionMissing)
    // The id is checked as passed, without trimming.
    else if institutionId.None? || institutionId.value == [] then Some(InstitutionIdMissing)
    else None
  }

  /** The document `submitReport` adds: both timestamps are the submission time. */
  function NewReport(id: string, uid: string, institutionId: Option<string>, institutionName: Option<string>,
                     userRole: Option<string>, title: string, description: string, now: int): (r: Report)
    ensures r.status == Some(InitialStatus) && r.managerResponse == Some([])
    ensures r.createdAt == Some(now) && r.updatedAt == r.createdAt
  {
    Report(id, Some(uid), institutionId, institutionName, userRole, Some(title), Some(description),
           Some(InitialStatus), Some([]), Some(now), Some(now))
  }

  /**
    The whole "submit" action. `newId` is the id the store assigns, `now` the
    clock reading and `writeOk` the success of the insert.
   */
  function SubmitReport(s: Store, uid: string, titleInput: string, descriptionInput: string,
                        institutionId: Option<string>, institutionName: Option<string>, userRole: Option<string>,
                        newId: string, now: int, writeOk: bool): (o: Outcome)
    requires FindReport(s.reports, newId).None?
    ensures !o.PartialWrite?
    ensures ValidateReport(titleInput, descriptionInput, institutionId).Some? ==>
      o == Rejected(ValidateReport(titleInput, descriptionInput, institutionId).value)
    ensures o.Ok? <==> ValidateReport(titleInput, descriptionInput, institutionId).None? && writeOk
    ensures o == Rejected(StoreFailure) <==> ValidateReport(titleInput, descriptionInput, institutionId).None? && !writeOk
    ensures o.Ok? ==>
      && |o.store.reports| == |s.reports| + 1
      && o.store.reports[..|s.reports|] == s.reports
      && o.store.users == s.users && o.store.institutions == s.institutions
      && var r := o.store.reports[|s.reports|];
      && r.id == newId
      && r.userId == Some(uid)
      && r.institutionId == institutionId && r.institutionName == institutionName && r.userRole == userRole
      && r.title == Some(Trim(titleInput)) && r.description == Some(Trim(descriptionInput))
      && r.title.value != [] && r.description.value != []
      && r.status == Some(InitialStatus) && r.managerResponse == Some([])
      && r.createdAt == Some(now) && r.updatedAt == Some(now)
      && r == NewReport(newId, uid, institutionId, institutionName, userRole, Trim(titleInput), Trim(descriptionInput), now)
  {
    match ValidateReport(titleInput, descriptionInput, institutionId)
    case Some(reason) => Rejected(reason)
    case None =>
      if !writeOk then Rejected(StoreFailure)
      else
        var r := NewReport(newId, uid, institutionId, institutionName, userRole,
                           Trim(titleInput), Trim(descriptionInput), now);
        Ok(s.(reports := s.reports + [r]))
  }

  /** A submitted report can be found under its new id, with its initial state. */
  lemma SubmittedReportIsFound(s: Store, uid: string, titleInput: string, descriptionInput: string,
                               institutionId: Option<string>, institutionName: Option<string>, userRole: Option<string>,
                               newId: string, now: int)
    requires FindReport(s.reports, newId).None?
    requires SubmitReport(s, uid, titleInput, descriptionInput, institutionId, institutionName, userRole, newId, now, true).Ok?
    ensures var s' := SubmitReport(s, uid, titleInput, descriptionInput, institutionId, institutionName, userRole, newId, now, true).store;
      && FindReport(s'.reports, newId) == Some(|s.reports|)
      && s'.reports[|s.reports|].status == Some(InitialStatus)
      && s'.reports[|s.reports|].managerResponse == Some([])
      && s'.reports[|s.reports|].createdAt == Some(now)
      && s'.reports[|s.reports|].updatedAt == Some(now)
  {
    var s' := SubmitReport(s, uid, titleInput, descriptionInput, institutionId, institutionName, userRole, newId, now, true).store;
    assert forall k :: 0 <= k < |s.reports| ==> s'.reports[k] == s.reports[k];
  }
}

=== FILE: user_dashboard.dfy ===
/**
  The user dashboard: one card per membership of the user, in stored order,
  skipping memberships without an institution id and institutions whose
  document is missing; each card carries a role label and the screen its tap
  opens, chosen by the membership's `isManager` flag.
 */
module UserDashboardActivity {
  import opened Wrappers
  import opened Domain
  import CreateInstitutionActivity
  import JoinInstitutionActivity

  const RoleLabelPrefix: string := "Your Role: "
  const DefaultRole: string := "Member"
  const ManagerBadge: string := " (Manager)"
  const DefaultInstitutionName: string := "Institution"

  /** A missing `isManager` counts as false. */
  predicate IsManagerEntry(m: Membership) {
    m.isManager == Some(true)
  }

  /** The role line of a card: the role, or "Member", with a manager badge iff `isManager`. */
  function RoleLabel(role: Option<string>, isManager: bool): (text: string)
    ensures |RoleLabelPrefix| <= |text| && text[..|RoleLabelPrefix|] == RoleLabelPrefix
    ensures !isManager ==> text[|RoleLabelPrefix|..] == role.GetOr(DefaultRole)
    ensures isManager ==>
      && |RoleLabelPrefix| + |ManagerBadge| <= |text|
      && text[|RoleLabelPrefix|..|text| - |ManagerBadge|] == role.GetOr(DefaultRole)
      && text[|text| - |ManagerBadge|..] == ManagerBadge
  {
    var base := RoleLabelPrefix + role.GetOr(DefaultRole);
    assert base[..|RoleLabelPrefix|] == RoleLabelPrefix && base[|RoleLabelPrefix|..] == role.GetOr(DefaultRole);
    if isManager then
      var text := base + ManagerBadge;
      assert text[..|base|] == base && text[|base|..] == ManagerBadge;
      text
    else base
  }

  /** The screen a card opens. */
  datatype Destination =
    | ManageInstitution(institutionId: string)
    | MemberView(institutionId: string, institutionName: Option<string>, role: Option<string>)

  datatype Card = Card(institutionId: string, name: string, roleLabel: string, destination: Destination)

  /** The card `loadInstitutionCard` builds from a membership and its institution's document. */
  function CardFor(inst: Institution, m: Membership): (c: Card)
    requires m.institutionId == Some(inst.id)
    ensures c.institutionId == inst.id
    ensures c.destination.ManageInstitution? <==> IsManagerEntry(m)
    ensures c.destination.institutionId == inst.id
    ensures c.destination.MemberView? ==> c.destination.role == m.role && c.destination.institutionName == inst.institutionName
    ensures c.name == inst.institutionName.GetOr(DefaultInstitutionName)
  {
    var manager := IsManagerEntry(m);
    Card(inst.id, inst.institutionName.GetOr(DefaultInstitutionName), RoleLabel(m.role, manager),
         if manager then ManageInstitution(inst.id) else MemberView(inst.id, inst.institutionName, m.role))
  }

  /** A membership gets a card iff it names an institution whose document exists. */
  predicate HasCard(insts: seq<Institution>, m: Membership) {
    m.institutionId.Some? && FindInstitution(insts, m.institutionId.value).Some?
  }

  /** The cards of a membership list, in stored order. */
  function CardsFor(insts: seq<Institution>, ms: seq<Membership>): (cs: seq<Card>)
    ensures |cs| <= |ms|
  {
    if ms == [] then []
    else
      var m := ms[0];
      var here :=
        if HasCard(insts, m) then
          [CardFor(insts[FindInstitution(insts, m.institutionId.value).value], m)]
        else [];
      here + CardsFor(insts, ms[1..])
  }

  /** Both directions: a card with a given destination is shown iff some membership yields it. */
  lemma {:induction false} CardsForMembership(insts: seq<Institution>, ms: seq<Membership>, c: Card)
    ensures c in CardsFor(insts, ms) <==>
      exists m :: m in ms && HasCard(insts, m)
        && c == CardFor(insts[FindInstitution(insts, m.institutionId.value).value], m)
  {
    if ms != [] {
      CardsForMembership(insts, ms[1..], c);
      assert forall m :: m in ms <==> m == ms[0] || m in ms[1..];
    }
  }

  /** What the dashboard shows; the "join" button is visible in both loaded states. */
  datatype View =
    | LoadFailed
    | NoDocument
    | JoinPrompt
    | Cards(cards: seq<Card>)

  /** `loadUserData` for user `uid`; `readOk` is the success of the user read. */
  function UserDashboard(s: Store, uid: string, readOk: bool): (v: View)
    ensures v == LoadFailed <==> !readOk
    ensures v == NoDocument <==> readOk && uid !in s.users
    ensures v == JoinPrompt <==> readOk && uid in s.users && MembershipsOf(s.users[uid]) == []
    ensures v.Cards? ==> v.cards == CardsFor(s.institutions, MembershipsOf(s.users[uid]))
  {
    if !readOk then LoadFailed
    else if uid !in s.users then NoDocument
    else
      var ms := MembershipsOf(s.users[uid]);
      if ms == [] then JoinPrompt else Cards(CardsFor(s.institutions, ms))
  }

  /**
    A membership of an existing institution shows a card opening the
    management screen when it is a manager entry and the member view, with the
    membership's role, otherwise.
   */
  lemma MembershipCardRoutes(s: Store, uid: string, m: Membership, inst: Institution)
    requires uid in s.users && m in MembershipsOf(s.users[uid])
    requires m.institutionId == Some(inst.id)
    requires FindInstitution(s.institutions, inst.id).Some? && s.institutions[FindInstitution(s.institutions, inst.id).value] == inst
    ensures UserDashboard(s, uid, true).Cards?
    ensures IsManagerEntry(m) ==> Card(inst.id, inst.institutionName.GetOr(DefaultInstitutionName), RoleLabel(m.role, true),
                                       ManageInstitution(inst.id)) in UserDashboard(s, uid, true).cards
    ensures !IsManagerEntry(m) ==> Card(inst.id, inst.institutionName.GetOr(DefaultInstitutionName), RoleLabel(m.role, false),
                                        MemberView(inst.id, inst.institutionName, m.role)) in UserDashboard(s, uid, true).cards
  {
    var ms := MembershipsOf(s.users[uid]);
    CardsForMembership(s.institutions, ms, CardFor(inst, m));
  }

  /** After a complete "create", the creator's dashboard has a card for the institution that opens its management. */
  lemma CreatorManagesFromDashboard(s: Store, creator: string, nameInput: string, rolesInput: string,
                                    newId: string, now: int)
    requires !HasInstitution(s.institutions, newId)
    requires CreateInstitutionActivity.CreateInstitution(s, creator, nameInput, rolesInput, newId, now, true, true).Ok?
    ensures var s' := CreateInstitutionActivity.CreateInstitution(s, creator, nameInput, rolesInput, newId, now, true, true).store;
      var v := UserDashboard(s', creator, true);
      && v.Cards?
      && exists c :: c in v.cards && c.destination == ManageInstitution(newId)
  {
    var s' := CreateInstitutionActivity.CreateInstitution(s, creator, nameInput, rolesInput, newId, now, true, true).store;
    var inst := s'.institutions[|s.institutions|];
    assert FindInstitution(s'.institutions, newId) == Some(|s.institutions|) by {
      assert forall k :: 0 <= k < |s.institutions| ==> s'.institutions[k] == s.institutions[k];
    }
    var ms := MembershipsOf(s'.users[creator]);
    var m := ms[|ms| - 1];
    assert m in ms;
    MembershipCardRoutes(s', creator, m, inst);
  }

  /** After a join, the member's dashboard has a card for the institution that opens the member view with the chosen role. */
  lemma JoinedMemberSeesCard(s: Store, uid: string, nameInput: string, selection: Option<nat>, writeOk: bool)
    requires JoinInstitutionActivity.SearchInstitution(s.institutions, nameInput, true).Offer?
    requires selection.Some? ==> selection.value < |JoinInstitutionActivity.SearchInstitution(s.institutions, nameInput, true).roles|
    requires JoinInstitutionActivity.Join(s, uid, JoinInstitutionActivity.SearchInstitution(s.institutions, nameInput, true), selection, true, writeOk).Ok?
    ensures var offer := JoinInstitutionActivity.SearchInstitution(s.institutions, nameInput, true);
      var s' := JoinInstitutionActivity.Join(s, uid, offer, selection, true, writeOk).store;
      var v := UserDashboard(s', uid, true);
      && v.Cards?
      && exists c :: c in v.cards && c.destination.MemberView? && c.destination.institutionId == offer.id
           && c.destination.role == Some(offer.roles[selection.value])
  {
    var offer := JoinInstitutionActivity.SearchInstitution(s.institutions, nameInput, true);
    var s' := JoinInstitutionActivity.Join(s, uid, offer, selection, true, writeOk).store;
    assert HasInstitution(s.institutions, offer.id);
    var inst := s'.institutions[FindInstitution(s'.institutions, offer.id).value];
    var ms := MembershipsOf(s'.users[uid]);
    var m := ms[|ms| - 1];
    assert m in ms;
    MembershipCardRoutes(s', uid, m, inst);
  }
}

=== FILE: view_all_reports.dfy ===
/**
  The manager's "all reports" screen: the institution's reports, narrowed by
  the status filter (the exact option "All" keeps everything), newest first.
 */
module ViewAllReportsActivity {
  import opened Wrappers
  import opened JavaString
  import opened Domain
  import opened ReportOrder
  import opened ReportScope
  import ManageReportActivity

  /** The filter option that turns filtering off; the spinner starts on it. */
  const AllFilter: string := "All"

  /** The filter spinner's options: "All", then the four status options. */
  const FilterOptions: seq<string> := [AllFilter] + ManageReportActivity.StatusOptions

  /** The filter's test for one report. */
  predicate PassesFilter(r: Report, filter: string) {
    filter == AllFilter || (r.status.Some? && EqualsIgnoreCase(r.status.value, filter))
  }

  /** The reports that pass the filter, in query order. */
  function FilterByStatus(rs: seq<Report>, filter: string): (r: seq<Report>)
    ensures |r| <= |rs|
  {
    if rs == [] then []
    else (if PassesFilter(rs[0], filter) then [rs[0]] else []) + FilterByStatus(rs[1..], filter)
  }

  /** Both directions: a report is kept iff it was queried and passes the filter. */
  lemma {:induction false} FilterMembership(rs: seq<Report>, filter: string, x: Report)
    ensures x in FilterByStatus(rs, filter) <==> x in rs && PassesFilter(x, filter)
  {
    if rs != [] {
      FilterMembership(rs[1..], filter, x);
      assert x in rs <==> x == rs[0] || x in rs[1..];
    }
  }

  /** The "All" option keeps every report, in query order. */
  lemma {:induction false} AllFilterKeepsEverything(rs: seq<Report>)
    ensures FilterByStatus(rs, AllFilter) == rs
  {
    if rs != [] {
      AllFilterKeepsEverything(rs[1..]);
      assert rs == [rs[0]] + rs[1..];
    }
  }

  /** What the list area shows. */
  datatype View =
    | LoadFailed
    | NoReports
    | NoneMatch(filter: string)
    | EmptyStatus
    | Listing(reports: seq<Report>)

  /**
    `loadReports` for institution `institutionId` under `filter`; `readOk` is
    the success of the query. Rendering a kept report with status `""` throws,
    which `EmptyStatus` stands for.
   */
  function ViewAllReports(s: Store, institutionId: string, filter: string, readOk: bool): (v: View)
    ensures v == LoadFailed <==> !readOk
    ensures v == NoReports <==> readOk && OfInstitution(s.reports, institutionId) == []
    ensures v.NoneMatch? ==> v.filter == filter
    ensures v.NoneMatch? <==>
      readOk && OfInstitution(s.reports, institutionId) != []
      && FilterByStatus(OfInstitution(s.reports, institutionId), filter) == []
    ensures v == EmptyStatus <==>
      readOk && exists r :: r in FilterByStatus(OfInstitution(s.reports, institutionId), filter) && HasEmptyStatus(r)
    ensures v.Listing? ==>
      var kept := FilterByStatus(OfInstitution(s.reports, institutionId), filter);
      && (forall r :: r in v.reports ==> !HasEmptyStatus(r))
      && multiset(v.reports) == multiset(kept)
      && SortedDesc(v.reports)
      && forall k :: WithKey(v.reports, k) == WithKey(kept, k)
  {
    if !readOk then LoadFailed
    else
      var scoped := OfInstitution(s.reports, institutionId);
      if scoped == [] then NoReports
      else
        var kept := FilterByStatus(scoped, filter);
        if kept == [] then NoneMatch(filter)
        else if AnyEmptyStatus(kept) then EmptyStatus
        else
          SortIsPermutation(kept);
          SortIsSorted(kept);
          assert forall k :: WithKey(SortByNewest(kept), k) == WithKey(kept, k) by {
            forall k ensures WithKey(SortByNewest(kept), k) == WithKey(kept, k) {
              SortIsStable(kept, k);
            }
          }
          forall r | r in SortByNewest(kept) ensures !HasEmptyStatus(r) {
            assert r in multiset(SortByNewest(kept));
          }
          Listing(SortByNewest(kept))
  }

  /** Every listed report belongs to the institution and passes the filter; every such report is listed. */
  lemma ListingIsExact(s: Store, institutionId: string, filter: string, x: Report)
    requires ViewAllReports(s, institutionId, filter, true).Listing?
    ensures x in ViewAllReports(s, institutionId, filter, true).reports <==>
      x in s.reports && x.institutionId == Some(institutionId) && PassesFilter(x, filter)
  {
    var scoped := OfInstitution(s.reports, institutionId);
    var listed := ViewAllReports(s, institutionId, filter, true).reports;
    assert x in listed <==> x in multiset(listed);
    FilterMembership(scoped, filter, x);
    OfInstitutionMembership(s.reports, institutionId, x);
  }

  /**
    Each status option shows exactly the reports an update set to that option:
    a written status passes option `j` iff it was written from option `j`.
   */
  lemma FilterOptionsMatchWrittenStatus(r: Report, i: nat, j: nat)
    requires i < |ManageReportActivity.StatusValues| && j < |ManageReportActivity.StatusOptions|
    requires r.status == Some(ManageReportActivity.StatusValues[i])
    ensures PassesFilter(r, FilterOptions[j + 1]) <==> i == j
  {
    var values := ManageReportActivity.StatusValues;
    var option := ManageReportActivity.StatusOptions[j];
    assert FilterOptions[j + 1] == option;
    assert |option| != |AllFilter|;
    ManageReportActivity.StatusValuesAreLoweredOptions();
    ManageReportActivity.OptionsAreCapitalizedValues(i);
    LowerOfLowerCase(values[i]);
    assert Lower(option) == values[j];
    ManageReportActivity.StatusValuesDistinct(i, j);
  }
}

=== FILE: view_my_reports.dfy ===
/**
  The member's "my reports" screen: the reports the current user submitted to
  one institution, all of them, newest first; and the manager-response line
  of the details dialog.
 */
module ViewMyReportsActivity {
  import opened Wrappers
  import opened Domain
  import opened ReportOrder
  import opened ReportScope
  import opened SubmitReportActivity

  /** What the list area shows. */
  datatype View =
    | LoadFailed
    | NoReports
    | EmptyStatus
    | Listing(reports: seq<Report>)

  /**
    `loadReports` for user `uid` at institution `institutionId`; `readOk` is
    the success of the query. No report of the query result is dropped.
    Rendering a report with status `""` throws, which `EmptyStatus` stands for.
   */
  function ViewMyReports(s: Store, uid: string, institutionId: string, readOk: bool): (v: View)
    ensures v == LoadFailed <==> !readOk
    ensures v == NoReports <==> readOk && OfUserAt(s.reports, uid, institutionId) == []
    ensures v == EmptyStatus <==> readOk && exists r :: r in OfUserAt(s.reports, uid, institutionId) && HasEmptyStatus(r)
    ensures v.Listing? ==>
      var mine := OfUserAt(s.reports, uid, institutionId);
      && (forall r :: r in v.reports ==> !HasEmptyStatus(r))
      && multiset(v.reports) == multiset(mine)
      && SortedDesc(v.reports)
      && forall k :: WithKey(v.reports, k) == WithKey(mine, k)
  {
    if !readOk then LoadFailed
    else
      var mine := OfUserAt(s.reports, uid, institutionId);
      if mine == [] then NoReports
      else if AnyEmptyStatus(mine) then EmptyStatus
      else
        SortIsPermutation(mine);
        SortIsSorted(mine);
        assert forall k :: WithKey(SortByNewest(mine), k) == WithKey(mine, k) by {
          forall k ensures WithKey(SortByNewest(mine), k) == WithKey(mine, k) {
            SortIsStable(mine, k);
          }
        }
        forall r | r in SortByNewest(mine) ensures !HasEmptyStatus(r) {
          assert r in multiset(SortByNewest(mine));
        }
        Listing(SortByNewest(mine))
  }

  /** The user's reports at the institution, as stored, that the screen cannot render. */
  predicate HasOwnEmptyStatus(rs: seq<Report>, uid: string, institutionId: string) {
    exists r :: r in rs && r.userId == Some(uid) && r.institutionId == Some(institutionId) && HasEmptyStatus(r)
  }

  /**
    A report the user submits to the institution shows up in that user's list
    there, unless an earlier report of theirs there has the empty status the
    screen cannot render.
   */
  lemma SubmittedReportIsListed(s: Store, uid: string, titleInput: string, descriptionInput: string,
                                institutionId: string, institutionName: Option<string>, userRole: Option<string>,
                                newId: string, now: int)
    requires FindReport(s.reports, newId).None?
    requires SubmitReport(s, uid, titleInput, descriptionInput, Some(institutionId), institutionName, userRole, newId, now, true).Ok?
    ensures var s' := SubmitReport(s, uid, titleInput, descriptionInput, Some(institutionId), institutionName, userRole, newId, now, true).store;
      var v := ViewMyReports(s', uid, institutionId, true);
      && (v.Listing? || v == EmptyStatus)
      && (v == EmptyStatus <==> HasOwnEmptyStatus(s.reports, uid, institutionId))
      && (v.Listing? ==> s'.reports[|s.reports|] in v.reports)
  {
    var s' := SubmitReport(s, uid, titleInput, descriptionInput, Some(institutionId), institutionName, userRole, newId, now, true).store;
    var r := s'.reports[|s.reports|];
    var mine := OfUserAt(s'.reports, uid, institutionId);
    OfUserAtMembership(s'.reports, uid, institutionId, r);
    assert r in mine;
    assert s'.reports == s.reports + [r];
    forall x | x in mine && HasEmptyStatus(x) ensures HasOwnEmptyStatus(s.reports, uid, institutionId) {
      OfUserAtMembership(s'.reports, uid, institutionId, x);
      assert x != r;
    }
    forall x | x in s.reports && x.userId == Some(uid) && x.institutionId == Some(institutionId) && HasEmptyStatus(x)
      ensures x in mine
    {
      OfUserAtMembership(s'.reports, uid, institutionId, x);
    }
    var v := ViewMyReports(s', uid, institutionId, true);
    if v.Listing? {
      assert r in multiset(v.reports);
    }
  }

  const NoResponseLine: string := "Manager Response: No response yet"
  const ResponseHeader: string := "Manager Response:\n"

  /**
    The details dialog's response line: the response under its header when
    there is one, otherwise the "No response yet" line.
   */
  function ResponseLine(managerResponse: Option<string>): (line: string)
    ensures line == NoResponseLine <==> managerResponse.None? || managerResponse.value == []
    ensures line != NoResponseLine ==>
      && |ResponseHeader| <= |line|
      && line[..|ResponseHeader|] == ResponseHeader
      && Some(line[|ResponseHeader|..]) == managerResponse
  {
    if managerResponse.Some? && managerResponse.value != [] then
      var line := ResponseHeader + managerResponse.value;
      assert line[..|ResponseHeader|] == ResponseHeader;
      // The two lines differ where the header ends: a line break against a space.
      var end := |ResponseHeader| - 1;
      assert line[end] == '\n' && NoResponseLine[end] == ' ';
      line
    else NoResponseLine
  }
}

=== FILE: wrappers.dfy ===
/** Java's nullable references and Firestore's possibly-absent fields. */
module Wrappers {

  /** `None` stands for Java `null` or for a document field that is not present. */
  datatype Option<+T> = None | Some(value: T) {

    /** The value, or `default` when absent (the `x != null ? x : d` idiom). */
    function GetOr(default: T): T {
      match this
      case Some(v) => v
      case None => default
    }
  }
}
